=== FILE: README.md ===
# Decision logic of the US-equity auto-trader, modelled in Dafny

This project models the decision core of `UsaStockAutoTrade.py`, a script that
trades a fixed watch-list of US stocks through a brokerage API with a
volatility-adjusted breakout entry and layered exits. All I/O has been removed.
The model covers five parts:

- **Position ledger** (`ledger.dfy`, module `Ledger`). It holds:
  - the entry-price map (`buy_prices`);
  - the high-water-mark map (`trailing_stops`);
  - the held-list (`bought_list`);
  - the broker-reported holdings (`stock_dict`).

  It also models the effects of accepted and rejected orders.
- **Exit rules** (`exit_rules.dfy`, module `ExitRules`, and `risk.dfy`, module `Risk`). Stop-loss, trailing stop and take-profit are modelled as threshold tests over exact prices (`real`). `Decide` gives the precedence the risk step applies. `Risk.Assess` and `Risk.RiskPass` are the risk step itself, symbol by symbol.
- **Volatility estimator, data handling** (`volatility.dfy`, module `Volatility`). It covers:
  - reading the close of a row through the fallback order of field names;
  - the adjacent-pair return loop, which skips unusable pairs;
  - the 0.2 fallback.
- **Breakout target** (`target_price.dfy`, module `TargetPrice`). It covers:
  - the volatility-tiered multiplier;
  - the target `open + (high - low) * multiplier`;
  - the announce-once set (`target_price_message_sent`).
- **Daily session** (`session.dfy`, module `Session`). It covers:
  - market hours;
  - the strict time windows of the main loop;
  - the one-shot `soldout` guard on both liquidations;
  - the entry scan with its gating;
  - a step function `Step` and a run `Run` over successive loop passes.

`market.dfy` (module `Market`) holds the shared vocabulary: symbols, `Option`, daily-price rows and broker order outcomes.

How the outside world enters the model:

- **Prices** are `real` (exact rationals), not floats.
- **Wall-clock time** is a `Clock`: the weekday plus microseconds since midnight in New York. The datetime values the script compares have microsecond precision.
- **Broker calls** are answers supplied with each pass (`Session.Tick`):
  - A quote is a map entry. A missing entry means the call raised.
  - An order is `Filled`, `Rejected` or `Raised`.
  - The holdings report is an `Option`.
- **Notifications** are not modelled. Only the announced-set is kept, because it is the one piece of notification state that affects later behaviour.
- **The statistics step** (`statistics.stdev(...) * math.sqrt(252)`) is a function parameter `annualise`. The model fixes when it is used and what it receives, not what it computes.

## Where the code and its own comments disagree

The model follows the code in every case below.

- **Take-profit while the trailing stop is armed.** In the code, take-profit is the `elif` of the trailing-stop check (UsaStockAutoTrade.py:438-448). So it is consulted whenever that check returns false, including when the trailing stop is armed (high-water mark above entry × 1.02) but not yet breached. The comments at lines 437 and 447 say that an armed position is decided by the trailing stop alone, and that take-profit applies only before arming.
  - `ExitRules.TakeProfitWhileArmed` proves that the code's decision (`Decide`) and the commented one (`IntendedDecide`) differ in exactly this case, where the code takes profit and the commented rule holds.
  - `ExitRules.ArmedTakeProfitExample` and `Risk.ArmedPositionTakesProfit` give a concrete instance: entry 100, mark 105, price 104.
- **Stop-loss does not always skip the other rules.** The comment at line 427 says stop-loss is checked first, ahead of the other conditions. When stop-loss fires for a symbol the broker does not report as held, the code falls through to the other rules. No sell can follow in that case, because every sell branch requires the symbol to be held (`Risk.UnheldNeverSold`).
- **Positions bought during the trading window are not protected.** The comment at line 582 says the trading window first manages the risk of existing positions. But the holdings report (`stock_dict`) is re-read only at start-up (line 523), after the pre-open liquidation (line 579) and at the close-out (line 629). The reports fetched after a buy (line 615) and at the half-hourly refresh (line 624) are discarded. So a symbol bought during the trading window is not in the holdings until the close-out, unless the broker's last report (line 523 or 579) still lists it. That happens, for example, when a pre-open sell was declined or had not settled by the re-read at line 579: line 577 still empties `bought_list`, so the scan can buy the symbol again. Every sell branch of the risk step requires the symbol to be in the holdings. So no stop-loss, trailing stop or take-profit can close a position bought in the trading window unless the last report lists its symbol.
  - `Session.TryEnter` leaves the holdings unchanged.
  - `Session.TradingKeepsHoldings` shows a trading pass never adds to them.
  - `Session.UnheldPositionsPersist` shows that over any run of trading passes an unreported position keeps its entry price, whatever its price does.
- **Buys and sells do not check the ledger.** A buy of a symbol that already has an entry price overwrites it (lines 306-307). A sell of a symbol without an entry price still succeeds and deletes nothing (lines 339-342). `Ledger.RecordBuy` and `Ledger.RecordSell` model exactly this.
- **Different percentages on the live path.** The risk step passes stop-loss 2% and take-profit 3% (lines 428 and 448). The checks' defaults (5% and 10%, lines 349 and 363) and the start-up banner at line 535 ("-5%, +10%") are not what runs.

## Model

| member | source | states |
|---|---|---|
| Ledger.UpdateTrailingStop | UsaStockAutoTrade.py:377-384 | the high-water mark never decreases, ends at least the current price, starts at exactly the current price for an untracked symbol, and no other symbol's mark changes |
| Ledger.RecordBuy | UsaStockAutoTrade.py:303-312 | an accepted buy sets both the entry price and the high-water mark to the reference price and leaves every other symbol as it was; a declined buy changes nothing |
| Ledger.RecordSell | UsaStockAutoTrade.py:337-347 | an accepted sell removes the symbol from both price maps, whether or not it was there; a declined sell changes nothing |
| Ledger.BuyThenSell | UsaStockAutoTrade.py:303-347 | a buy followed by a sell of the same symbol restores the price maps minus that symbol, and restores them exactly when the symbol was untracked |
| Ledger.OrdersKeepTracked | UsaStockAutoTrade.py:303-347 | buys, sells and risk-step closes keep the entry-price and high-water-mark maps tracking the same symbols |
| Ledger.RemoveFirst | UsaStockAutoTrade.py:432 | list removal deletes the first occurrence of a present symbol and keeps the other symbols in their order (the list before that occurrence followed by the list after it); a list without the symbol comes back unchanged |
| Ledger.FirstIndex | UsaStockAutoTrade.py:432 | the position list removal deletes: an occurrence of the symbol with none before it, or the list length when the symbol is absent |
| Ledger.RemoveFirstCounts | UsaStockAutoTrade.py:432 | removing a present symbol shortens the list by one, takes out exactly one occurrence (multiset difference), keeps every other symbol and introduces none |
| Ledger.RemoveFirstNoDup | UsaStockAutoTrade.py:432 | on a list without repeats, the removal deletes the symbol entirely and keeps the list without repeats |
| Ledger.Close | UsaStockAutoTrade.py:429-434 | after an accepted risk-step sell, the symbol leaves both price maps, one occurrence leaves the held-list and the symbol leaves the holdings, every other held symbol stays; when it is not on the held-list, only the price maps change |
| ExitRules.StopLossIsLossFraction | UsaStockAutoTrade.py:349-361 | stop-loss is false without an entry price; with a positive entry it fires exactly when the loss fraction (current − entry)/entry reaches −pct |
| ExitRules.TakeProfitIsGainFraction | UsaStockAutoTrade.py:363-375 | take-profit is false without an entry price; with a positive entry it fires exactly when the gain fraction reaches pct |
| ExitRules.LiveTighterThanDefaults | UsaStockAutoTrade.py:349-375 | with a positive entry, any default-level (5% / 10%) stop-loss or take-profit also meets the live 2% / 3% thresholds, and a 3% loss stops out live but not at the default |
| ExitRules.TrailingIsDrawdown | UsaStockAutoTrade.py:386-403 | the trailing stop is false unless the symbol is in both maps; with positive prices it fires exactly when the peak gain exceeds 2% and the drawdown from the peak reaches pct |
| ExitRules.StopLossFirst | UsaStockAutoTrade.py:427-435 | a triggered stop-loss decides the exit whatever the high-water mark |
| ExitRules.DecideSound | UsaStockAutoTrade.py:424-455 | each exit decision is backed by its own threshold, stop-loss is chosen exactly when it fires, and hold means that no rule fired |
| ExitRules.TakeProfitWhileArmed | UsaStockAutoTrade.py:437-448 | the code and the commented strategy differ exactly when trailing is armed but unbreached, there is no stop-loss, and the price is at least 3% above entry; the code then takes profit where the strategy holds |
| ExitRules.ArmedTakeProfitExample | UsaStockAutoTrade.py:437-448 | entry 100, mark 105, price 104: trailing is armed and the code takes profit |
| ExitRules.UnarmedAgrees | UsaStockAutoTrade.py:394-395 | before arming, the code and the commented strategy agree; a position whose mark equals its non-negative entry (just bought) is not armed |
| ExitRules.ScenarioTakeProfitBeforeArming | UsaStockAutoTrade.py:438-448 | entry 100, mark 101, price 103 gives take-profit |
| ExitRules.ScenarioTrailingStop | UsaStockAutoTrade.py:438-445 | entry 100, mark 105, price 102.79 gives trailing stop |
| ExitRules.ScenarioStopLoss | UsaStockAutoTrade.py:428-435 | entry 100, price 97.9 gives stop-loss for any mark |
| ExitRules.StopLoss | UsaStockAutoTrade.py:349-361 | no contract of its own; `ExitRules.StopLossIsLossFraction` states it as a loss fraction |
| ExitRules.TakeProfit | UsaStockAutoTrade.py:363-375 | no contract of its own; `ExitRules.TakeProfitIsGainFraction` states it as a gain fraction |
| ExitRules.Armed | UsaStockAutoTrade.py:391-395 | no contract of its own; `ExitRules.TrailingIsDrawdown` and `ExitRules.UnarmedAgrees` state when protection is armed |
| ExitRules.TrailingStop | UsaStockAutoTrade.py:386-403 | no contract of its own; `ExitRules.TrailingIsDrawdown` states it as peak gain and drawdown |
| ExitRules.Decide | UsaStockAutoTrade.py:427-448 | no contract of its own; `ExitRules.DecideSound` and `ExitRules.StopLossFirst` state the precedence, `ExitRules.TakeProfitWhileArmed` its one difference from the commented strategy |
| ExitRules.IntendedDecide | UsaStockAutoTrade.py:437-448 | no contract of its own; the reference strategy of the comments, related to `ExitRules.Decide` by `ExitRules.TakeProfitWhileArmed` and `ExitRules.UnarmedAgrees` |
| Risk.Assess | UsaStockAutoTrade.py:407-455 | a symbol without an entry price, or whose quote raised, is left alone; otherwise it is closed exactly when the decision on the raised mark is an exit, the broker holds it, and the sell is accepted; a position that survives differs from the input only by its mark being raised to max(old mark, quote), so a declined or raised sell leaves the held-list and holdings untouched; a close removes the first occurrence from the held-list and the symbol from the holdings, and no other symbol leaves either; a close also removes the symbol's mark, whatever the mark map held |
| Risk.RiskPassEntries | UsaStockAutoTrade.py:405-461 | over the whole pass, entry prices are never rewritten, and a position leaves the ledger only through an accepted sell of an examined, quoted symbol that the broker holds |
| Risk.RiskPassMarksRise | UsaStockAutoTrade.py:424-425 | over the whole pass, high-water marks only rise, and no symbol without a mark or an entry price gains one |
| Risk.RiskPassMarksUntouched | UsaStockAutoTrade.py:407-408 | marks of symbols that are not on the held-list snapshot stay exactly as they were |
| Risk.RiskPassMarksCoverQuote | UsaStockAutoTrade.py:424-425 | every examined, quoted position that survives ends with a mark at least its fetched price (the mark is updated before any rule) |
| Risk.RiskPassTracked | UsaStockAutoTrade.py:405-461 | the pass keeps the two price maps tracking the same symbols |
| Risk.RiskPassHoldings | UsaStockAutoTrade.py:407-455 | the pass only drops symbols from the held-list (sub-multiset), keeps it without repeats, never alters a remaining holding, and a symbol leaves the held-list or the holdings only together with its entry price, i.e. through an accepted sell |
| Risk.StopLossCloses | UsaStockAutoTrade.py:427-435 | a stop-loss on a held, broker-reported symbol with an accepted sell closes the position at once |
| Risk.UnheldNeverSold | UsaStockAutoTrade.py:429-455 | a symbol the broker does not report is never sold by the risk step, even when a rule fires |
| Risk.ArmedPositionTakesProfit | UsaStockAutoTrade.py:437-455 | an armed position (entry 100, mark 105) quoted at 104 is closed by take-profit |
| Risk.RiskPass | UsaStockAutoTrade.py:405-461 | no contract of its own; the `Risk.RiskPass*` lemmas state what it does to entries, marks, the held-list and holdings |
| Risk.RiskStep | UsaStockAutoTrade.py:407 | no contract of its own; the pass over a snapshot of the held-list, used by `Session.StepKeepsValid` and `Session.StepBounded` |
| Volatility.CloseFieldOrder | UsaStockAutoTrade.py:154-157 | the close is read from "clos", else "last", else "base", else "close", and a row with none of them reads as 0 |
| Volatility.PairReturn | UsaStockAutoTrade.py:155-163 | a pair gives a return exactly when both closes convert and neither is 0, and then the return times yesterday's close is the day's change |
| Volatility.Close | UsaStockAutoTrade.py:155-156 | no contract of its own; `Volatility.CloseFieldOrder` states the field order and the 0 default |
| Volatility.PairsExamined | UsaStockAutoTrade.py:149 | the number of pairs examined is min(days, rows − 1), never more than days, always fewer than the number of rows, and 0 for an empty history |
| Volatility.Returns | UsaStockAutoTrade.py:148-166 | exactly one return per usable pair among those examined (its length is the size of the usable-pair set, at most the number examined); the values are stated by `Volatility.ReturnsValues` |
| Volatility.ReturnsValues | UsaStockAutoTrade.py:148-166 | the return of usable pair k sits at position "number of usable pairs before k"; with the length this fixes every value passed to the statistics |
| Volatility.ReturnValueAt | UsaStockAutoTrade.py:148-166 | the pointwise form: one usable pair's return at its rank, by induction over the pairs examined |
| Volatility.Estimate | UsaStockAutoTrade.py:144-174 | 0.2 for an empty history or fewer than two usable pairs; otherwise the statistics applied to the collected returns |
| Volatility.CollectReturns | UsaStockAutoTrade.py:148-166 | the pair-by-pair loop, skipping pairs with a zero or unconvertible close, yields exactly the reference returns |
| Volatility.EstimateIgnoresOlderRows | UsaStockAutoTrade.py:149 | rows past the first min(days, rows − 1) + 1 do not affect the estimate |
| Volatility.ZeroCloseSkipped | UsaStockAutoTrade.py:156-160 | a row whose close is 0, or missing, makes both pairs it belongs to unusable |
| Volatility.SingleRowFallback | UsaStockAutoTrade.py:149-174 | a one-row history yields the 0.2 fallback |
| TargetPrice.Multiplier | UsaStockAutoTrade.py:201-207 | the multiplier is 0.3 exactly when volatility > 0.4, 0.5 exactly when 0.25 < volatility ≤ 0.4, and 0.7 exactly when volatility ≤ 0.25 |
| TargetPrice.MultiplierNonIncreasing | UsaStockAutoTrade.py:201-207 | a higher volatility never gives a larger multiplier |
| TargetPrice.TargetBounds | UsaStockAutoTrade.py:209 | when high ≥ low, the target lies between open + 0.3·range and open + 0.7·range, so never below the open |
| TargetPrice.TargetNonIncreasing | UsaStockAutoTrade.py:201-209 | when high ≥ low, a higher volatility never raises the target |
| TargetPrice.Target | UsaStockAutoTrade.py:209 | no contract of its own; `TargetPrice.TargetBounds` and `TargetPrice.TargetNonIncreasing` state where it lies and how it moves with volatility |
| TargetPrice.ReadBars | UsaStockAutoTrade.py:194-196 | reading succeeds exactly when there are two rows, row 0 has a convertible open, and row 1 has a convertible high and low; the values are those fields |
| TargetPrice.GetTarget | UsaStockAutoTrade.py:176-217 | fails exactly when the bars cannot be read; on success, the symbol is in the announced-set afterwards and is announced exactly when it was not in the set before |
| TargetPrice.AnnouncedOnce | UsaStockAutoTrade.py:211-215 | across any run of computations for one symbol, at most one announcement is made: none if it was already announced, otherwise exactly one if some computation succeeds |
| Session.WindowsExclusive | UsaStockAutoTrade.py:553-647 | the loop's four time windows are mutually exclusive and the boundary instants 9:30, 9:35, 15:45 and 15:50 fall into none; weekends are closed and 9:30 and 16:00 count as open |
| Session.MarketHours | UsaStockAutoTrade.py:488-500 | for a weekday in 0..6, the market is open exactly on Monday to Friday from 9:30:00 to 16:00:00 inclusive |
| Session.IsMarketOpen | UsaStockAutoTrade.py:488-500 | no contract of its own; `Session.MarketHours` states it as weekday and time of day |
| Session.WindowAt | UsaStockAutoTrade.py:553-557 | no contract of its own; `Session.WindowsExclusive` states that the windows are disjoint and exclude their bounds |
| Session.TryEnter | UsaStockAutoTrade.py:586-614 | the held-list gains the symbol exactly when the gate holds (free slot, not held, target computed and below the quote, whole shares > 0) and the buy fills; then `soldout` is cleared and entry and mark equal the quote; otherwise book and guard are unchanged; with a free slot, the symbol not held and its rows readable, the symbol is in the announced-set afterwards, and the set changes only by it and only after a successful read; with the list full or the symbol held, nothing changes at all (lines 587-589) |
| Session.EnterBought | UsaStockAutoTrade.py:586-614 | the scan only appends watch-list symbols, never fills past the target count, keeps the list without repeats, and leaves `soldout` set exactly when it was set and nothing was bought |
| Session.EnterLedger | UsaStockAutoTrade.py:586-614 | the scan keeps the price maps tracking the same symbols, adds no zero entry price, and does not touch the entry or mark of a symbol already held |
| Session.EnterBounded | UsaStockAutoTrade.py:587 | after the scan the held-list is no longer than the target count, or than its old length if that was larger |
| Session.EnterAnnounced | UsaStockAutoTrade.py:586-601 | the scan only adds to the announced-set, only scanned symbols with readable rows that were not held at the start, nothing when the list starts full, and when it ends with a free slot every scanned readable symbol not held at the start is announced |
| Session.EnterKeepsEntries | UsaStockAutoTrade.py:586-618 | the scan never drops an entry price and never changes the holdings |
| Session.Enter | UsaStockAutoTrade.py:586-618 | no contract of its own; `Session.EnterBought`, `Session.EnterLedger`, `Session.EnterBounded`, `Session.EnterAnnounced` and `Session.EnterKeepsEntries` state its effect |
| Session.TradeStep | UsaStockAutoTrade.py:581-618 | no contract of its own; the risk step followed by the entry scan, stated by `Session.TradingPassRisk` and `Session.TradingKeepsHoldings`, and by `Session.StepKeepsValid`, `Session.StepBounded` and `Session.SoldoutClearedOnlyByBuy` |
| Session.TradingPass | UsaStockAutoTrade.py:581-625 | no contract of its own; `Session.RefreshFailureCrashes` states when the trading pass ends the program |
| Session.RefreshFailureCrashes | UsaStockAutoTrade.py:620-625 | a trading pass ends the program exactly when the half-hourly refresh is due (minute 30, second at most 10) and the holdings call raises; otherwise it continues with the risk step and entry scan result, the refresh result being discarded |
| Session.RefreshWindowExample | UsaStockAutoTrade.py:623-625 | on a Monday a raising holdings call ends the program at 10:30:05 but not at 10:30:11 |
| Session.Liquidate | UsaStockAutoTrade.py:565-577 | a liquidation empties the held-list, removes exactly the symbols whose sells were accepted from both price maps, never rewrites an entry price or a mark, and keeps the entry price and mark of every symbol not sold |
| Session.PreOpenStep | UsaStockAutoTrade.py:565-579 | no contract of its own; `Session.LiquidationOneShot`, `Session.LiquidateOnlyOnce` and `Session.LiquidationLedger` state its guard and ledger effect |
| Session.CloseOutStep | UsaStockAutoTrade.py:627-643 | no contract of its own; `Session.LiquidationOneShot`, `Session.LiquidateOnlyOnce` and `Session.LiquidationLedger` state its guard and ledger effect |
| Session.StepStops | UsaStockAutoTrade.py:560-647 | the loop stops exactly when the market is closed or the time is past 15:50; a pass at a boundary instant (9:30, 9:35, 15:45, 15:50), where every window test is strict, leaves the state unchanged |
| Session.Step | UsaStockAutoTrade.py:552-649 | no contract of its own; `Session.StepStops`, `Session.StepKeepsValid`, `Session.StepBounded`, `Session.RefreshFailureCrashes`, `Session.LiquidationLedger` and `Session.TradingPassRisk` state its behaviour |
| Session.LiquidationOneShot | UsaStockAutoTrade.py:565-643 | in a liquidation window, a set `soldout` makes the pass a no-op; a clear one leads to a liquidation that sets it and empties the held-list, and that completes exactly when no sell and no holdings report raises |
| Session.LiquidateOnlyOnce | UsaStockAutoTrade.py:565-643 | a second pass in a liquidation window after a completed one changes nothing |
| Session.LiquidationLedger | UsaStockAutoTrade.py:565-579 | a completed liquidation removes from both price maps exactly the symbols whose sells were accepted, empties the held-list, sets `soldout`, and makes the holdings the fresh broker report (read after the sells before the open, at line 579; before them at the close, at line 629) |
| Session.StepKeepsValid | UsaStockAutoTrade.py:552-649 | every pass keeps the held-list without repeats, the two price maps tracking the same symbols, and every entry price nonzero (a buy needs a nonzero quote, line 606) |
| Session.StepBounded | UsaStockAutoTrade.py:581-643 | no pass grows the held-list beyond the target count, or at all when it is already at or past it |
| Session.SoldoutClearedOnlyByBuy | UsaStockAutoTrade.py:610-614 | a pass that clears `soldout` is a trading pass whose entry scan bought something |
| Session.TradingPassRisk | UsaStockAutoTrade.py:405-455 | in a trading pass a position leaves the ledger only through an accepted sell of a held-list symbol that was quoted and that the broker reports; when the two price maps track the same symbols, one that could not be sold keeps its entry price, and its mark ends at least its quote and its old mark |
| Session.TradingKeepsHoldings | UsaStockAutoTrade.py:581-625 | a trading pass never adds to the holdings; the reports at lines 615 and 624 are discarded |
| Session.UnheldPositionsPersist | UsaStockAutoTrade.py:405-455 | over any run of trading passes, a position the broker does not report keeps its entry price: the risk step never sells it |
| Session.RunKeepsValid | UsaStockAutoTrade.py:552-649 | from any valid start, including one where start-up put more than four broker holdings on the held-list (lines 523-525), every continuation keeps the invariant, and the held-list never exceeds the target count or its starting length when that was larger |
| Session.Run | UsaStockAutoTrade.py:552-649 | no contract of its own; `Session.RunKeepsValid`, `Session.GuardedRunIsQuiet` and `Session.UnheldPositionsPersist` state its behaviour |
| Session.GuardedRunIsQuiet | UsaStockAutoTrade.py:565-643 | with `soldout` set and no trading pass, a run of passes changes nothing, so liquidations do not repeat |

## Left out

- HTTP and broker plumbing (token, hashkey, quote, balance and exchange-rate requests, order construction, retry session; lines 48-57, 79-119, 219-302) is left out. Its results enter as the per-pass answers in `Session.Tick`.
- Exchange-segment routing (NASD/NYSE/AMEX codes per symbol) is left out. It only picks the endpoint arguments of broker calls.
- Notifications (`send_message` and its keyword filter, lines 63-77) are fire-and-forget I/O. Only the announced-set is modelled.
- Configuration loading (lines 14-46) and start-up (lines 504-550) are left out. Start-up covers the token, the cash and exchange-rate lookups, the computation of the per-symbol allotment `buy_amount`, the initial held-list, and the initial target announcements. The model starts from any state, and the run lemmas from any state satisfying `Session.Valid`. At start-up the entry-price map is empty, which satisfies it. The allotment is `Config.buyAmount`.
- The statistics themselves (`statistics.stdev(...) * math.sqrt(252)`) and float rounding are abstracted as the parameter `annualise` and exact reals. String-to-float conversion is abstracted as a converted-or-not field value.
- `Volatility.Estimate` and `TargetPrice.GetTarget` read the same rows. In the script they are two identical requests to the same endpoint.
- Sleeps are left out. The half-hourly balance refresh (lines 623-625) is modelled only for its failure: its result is discarded, and its exception ends the program (`Session.TradingPass`).
- A pass reads the clock twice: at line 553 for the windows, and again inside `is_market_open` at line 490. The model uses a single reading per pass for both, so it does not represent a pass whose two readings straddle 9:30 or 16:00. Time monotonicity across passes is not assumed.
- Iteration order over the holdings dictionary in the liquidations is not modelled. Its only visible effect would be which sells were sent before an exception ends the program, and the model reports that case as `Crashed` without the partial state.
- Risk.Assess: with an entry price of 0, the source's rule checks divide by it (lines 358, 372, 399). The resulting ZeroDivisionError is caught at line 459 and nothing is sold, whereas the model's comparisons can sell. That state cannot arise: `Session.Valid` excludes zero entries, a buy at a zero quote is never placed (line 606), and `Session.StepKeepsValid` proves no pass creates one.
- `start.py` (health-check server, process supervision, log scraping) is not part of this model.

=== FILE: exit_rules.dfy ===
/** Exit rules for an open position: stop-loss, trailing stop and fixed
    take-profit as threshold tests over exact prices, and the precedence in
    which the risk step consults them. */
module ExitRules {
  import opened Market

  /** Percentages the risk step passes to the three checks. */
  const LiveStopLossPct: real := 0.02
  const LiveTrailingPct: real := 0.02
  const LiveProfitPct: real := 0.03

  /** Defaults in the checks' own signatures; the risk step overrides the
      stop-loss and take-profit ones. */
  const DefaultStopLossPct: real := 0.05
  const DefaultProfitPct: real := 0.1
  const DefaultTrailingPct: real := 0.02

  /** Trailing protection is armed once the high-water mark exceeds the entry
      price by more than this factor. */
  const ArmingFactor: real := 1.02

  /** Stop-loss test: the price fell to `pct` below entry or lower. */
  predicate StopLoss(entries: map<Symbol, real>, code: Symbol, current: real, pct: real)
  {
    code in entries && current <= entries[code] * (1.0 - pct)
  }

  /** Take-profit test: the price rose to `pct` above entry or higher. */
  predicate TakeProfit(entries: map<Symbol, real>, code: Symbol, current: real, pct: real)
  {
    code in entries && current >= entries[code] * (1.0 + pct)
  }

  /** Trailing protection is armed: the high-water mark is more than 2% above entry. */
  predicate Armed(entries: map<Symbol, real>, marks: map<Symbol, real>, code: Symbol)
  {
    code in marks && code in entries && marks[code] > entries[code] * ArmingFactor
  }

  /** Trailing-stop test: armed, and the price fell `pct` below the high-water mark or lower. */
  predicate TrailingStop(entries: map<Symbol, real>, marks: map<Symbol, real>, code: Symbol, current: real, pct: real)
  {
    Armed(entries, marks, code) && current <= marks[code] * (1.0 - pct)
  }

  /** The rule that leads the risk step to sell. */
  datatype Exit = Hold | StopLossExit | TrailingExit | TakeProfitExit

  /** The decision of the risk step, as the code makes it: stop-loss first;
      then the trailing stop; take-profit whenever the trailing test came out
      false, armed or not. `marks` already holds the raised high-water mark. */
  function Decide(entries: map<Symbol, real>, marks: map<Symbol, real>, code: Symbol, current: real): Exit
  {
    if StopLoss(entries, code, current, LiveStopLossPct) then StopLossExit
    else if TrailingStop(entries, marks, code, current, LiveTrailingPct) then TrailingExit
    else if TakeProfit(entries, code, current, LiveProfitPct) then TakeProfitExit
    else Hold
  }

  /** Reference decision following the strategy as the comments describe it:
      once trailing protection is armed it alone decides, and the fixed
      take-profit applies only before arming. */
  function IntendedDecide(entries: map<Symbol, real>, marks: map<Symbol, real>, code: Symbol, current: real): Exit
  {
    if StopLoss(entries, code, current, LiveStopLossPct) then StopLossExit
    else if Armed(entries, marks, code) then
      (if current <= marks[code] * (1.0 - LiveTrailingPct) then TrailingExit else Hold)
    else if TakeProfit(entries, code, current, LiveProfitPct) then TakeProfitExit
    else Hold
  }

  /** Stop-loss fires exactly when the realised loss from entry reaches the
      percentage; a symbol without an entry price never stops out. */
  lemma StopLossIsLossFraction(entries: map<Symbol, real>, code: Symbol, current: real, pct: real)
    ensures code !in entries ==> !StopLoss(entries, code, current, pct)
    ensures code in entries && entries[code] > 0.0 ==>
      (StopLoss(entries, code, current, pct) <==> (current - entries[code]) / entries[code] <= -pct)
  {
  }

  /** Take-profit fires exactly when the gain from entry reaches the
      percentage; a symbol without an entry price never takes profit. */
  lemma TakeProfitIsGainFraction(entries: map<Symbol, real>, code: Symbol, current: real, pct: real)
    ensures code !in entries ==> !TakeProfit(entries, code, current, pct)
    ensures code in entries && entries[code] > 0.0 ==>
      (TakeProfit(entries, code, current, pct) <==> (current - entries[code]) / entries[code] >= pct)
  {
  }

  /** The trailing stop fires exactly when the peak gain from entry exceeds 2%
      and the drawdown from the peak reaches the percentage; it never fires
      for a symbol missing from either map. */
  lemma TrailingIsDrawdown(entries: map<Symbol, real>, marks: map<Symbol, real>, code: Symbol, current: real, pct: real)
    ensures code !in entries || code !in marks ==> !TrailingStop(entries, marks, code, current, pct)
    ensures code in entries && code in marks && entries[code] > 0.0 && marks[code] > 0.0 ==>
      (TrailingStop(entries, marks, code, current, pct) <==>
        (marks[code] - entries[code]) / entries[code] > 0.02 && (marks[code] - current) / marks[code] >= pct)
  {
    if code in entries && code in marks && entries[code] > 0.0 && marks[code] > 0.0 {
      var e, m := entries[code], marks[code];
      assert (m - e) / e * e == m - e;
      assert (m - current) / m * m == m - current;
    }
  }

  /** The risk step's stop-loss and take-profit percentages are tighter
      than the checks' defaults: for a positive entry, every default-level
      stop-loss or take-profit is also a live one, and a 3% loss from 100
      stops out live but not at the default 5%. */
  lemma LiveTighterThanDefaults(entries: map<Symbol, real>, code: Symbol, current: real)
    ensures code in entries && entries[code] > 0.0 ==>
      (StopLoss(entries, code, current, DefaultStopLossPct) ==> StopLoss(entries, code, current, LiveStopLossPct))
    ensures code in entries && entries[code] > 0.0 ==>
      (TakeProfit(entries, code, current, DefaultProfitPct) ==> TakeProfit(entries, code, current, LiveProfitPct))
    ensures StopLoss(map[code := 100.0], code, 97.0, LiveStopLossPct)
    ensures !StopLoss(map[code := 100.0], code, 97.0, DefaultStopLossPct)
  {
  }

  /** Stop-loss pre-empts every other rule, whatever the high-water mark. */
  lemma StopLossFirst(entries: map<Symbol, real>, marks: map<Symbol, real>, code: Symbol, current: real)
    requires StopLoss(entries, code, current, LiveStopLossPct)
    ensures Decide(entries, marks, code, current) == StopLossExit
    ensures IntendedDecide(entries, marks, code, current) == StopLossExit
  {
  }

  /** Each decision is backed by its own threshold, and a hold means no rule
      was met. */
  lemma DecideSound(entries: map<Symbol, real>, marks: map<Symbol, real>, code: Symbol, current: real)
    ensures Decide(entries, marks, code, current) == StopLossExit <==> StopLoss(entries, code, current, LiveStopLossPct)
    ensures Decide(entries, marks, code, current) == TrailingExit ==> TrailingStop(entries, marks, code, current, LiveTrailingPct)
    ensures Decide(entries, marks, code, current) == TakeProfitExit ==> TakeProfit(entries, code, current, LiveProfitPct)
    ensures Decide(entries, marks, code, current) == Hold <==>
      !StopLoss(entries, code, current, LiveStopLossPct)
      && !TrailingStop(entries, marks, code, current, LiveTrailingPct)
      && !TakeProfit(entries, code, current, LiveProfitPct)
  {
  }

  /** The code and the described strategy disagree in exactly one situation:
      trailing protection is armed but not breached, no stop-loss, and the
      price is at least 3% above entry. The code then takes profit where the
      strategy would hold. */
  lemma TakeProfitWhileArmed(entries: map<Symbol, real>, marks: map<Symbol, real>, code: Symbol, current: real)
    ensures Decide(entries, marks, code, current) != IntendedDecide(entries, marks, code, current) <==>
      Armed(entries, marks, code)
      && !StopLoss(entries, code, current, LiveStopLossPct)
      && !TrailingStop(entries, marks, code, current, LiveTrailingPct)
      && TakeProfit(entries, code, current, LiveProfitPct)
    ensures Decide(entries, marks, code, current) != IntendedDecide(entries, marks, code, current) ==>
      Decide(entries, marks, code, current) == TakeProfitExit
      && IntendedDecide(entries, marks, code, current) == Hold
  {
  }

  /** Worked instance of the disagreement: entry 100, high-water mark 105
      (armed), price 104 (above the 102.9 trailing floor): the code takes
      profit. */
  lemma ArmedTakeProfitExample(code: Symbol)
    ensures Armed(map[code := 100.0], map[code := 105.0], code)
    ensures Decide(map[code := 100.0], map[code := 105.0], code, 104.0) == TakeProfitExit
    ensures IntendedDecide(map[code := 100.0], map[code := 105.0], code, 104.0) == Hold
  {
  }

  /** While trailing protection is not armed, the code and the described
      strategy agree. A position just bought (high-water mark equal to a
      non-negative entry) is never armed. */
  lemma UnarmedAgrees(entries: map<Symbol, real>, marks: map<Symbol, real>, code: Symbol, current: real)
    ensures !Armed(entries, marks, code) ==>
      Decide(entries, marks, code, current) == IntendedDecide(entries, marks, code, current)
    ensures code in entries && code in marks && marks[code] == entries[code] && entries[code] >= 0.0 ==>
      !Armed(entries, marks, code)
  {
  }

  /** Scenario: entry 100, high-water mark 101 (not armed), price 103: take-profit. */
  lemma ScenarioTakeProfitBeforeArming(code: Symbol)
    ensures Decide(map[code := 100.0], map[code := 101.0], code, 103.0) == TakeProfitExit
  {
  }

  /** Scenario: entry 100, high-water mark 105, price 102.79 (at or below 102.9): trailing stop. */
  lemma ScenarioTrailingStop(code: Symbol)
    ensures Decide(map[code := 100.0], map[code := 105.0], code, 102.79) == TrailingExit
  {
  }

  /** Scenario: entry 100, price 97.9 (at or below 98): stop-loss, whatever the high-water mark. */
  lemma ScenarioStopLoss(code: Symbol, mark: real)
    ensures Decide(map[code := 100.0], map[code := mark], code, 97.9) == StopLossExit
  {
  }
}

=== FILE: ledger.dfy ===
/** The position ledger of the trading script: the entry price and the
    high-water mark of every position it opened itself, next to the held-list
    and the broker-reported holdings. Orders change the ledger only when the
    broker accepts them. */
module Ledger {
  import opened Market

  /** All position bookkeeping of one process run.
      - `buyPrices`: entry (reference) price per symbol;
      - `trailingStops`: highest price seen since entry, per symbol;
      - `bought`: the held-list, in order of acquisition;
      - `holdings`: quantity per symbol as last reported by the broker. */
  datatype Book = Book(
    buyPrices: map<Symbol, real>,
    trailingStops: map<Symbol, real>,
    bought: seq<Symbol>,
    holdings: map<Symbol, int>)

  /** The two price maps track the same symbols. */
  predicate Tracked(b: Book)
  {
    b.buyPrices.Keys == b.trailingStops.Keys
  }

  /** No entry price is zero. The exit rules divide by the entry price, and
      a buy at a zero quote is never placed (the share count divides by it
      first), so a zero entry cannot arise from a buy. */
  predicate PricedEntries(b: Book)
  {
    forall c :: c in b.buyPrices ==> b.buyPrices[c] != 0.0
  }

  /** Raise the high-water mark of `code` to `current` when the price is a
      new high; a symbol without a mark starts at `current`. */
  function UpdateTrailingStop(marks: map<Symbol, real>, code: Symbol, current: real): (r: map<Symbol, real>)
    ensures code in r && r[code] >= current
    ensures code in marks ==> r[code] >= marks[code]
    ensures code !in marks ==> r[code] == current
    ensures code in marks ==> r[code] == marks[code] || r[code] == current
    ensures r.Keys == marks.Keys + {code}
    ensures forall c :: c in marks && c != code ==> r[c] == marks[c]
  {
    if code !in marks then marks[code := current]
    else if current > marks[code] then marks[code := current]
    else marks
  }

  /** Ledger effect of a buy order placed at reference price `price`. */
  function RecordBuy(b: Book, code: Symbol, price: real, o: Order): (r: Book)
    ensures o == Filled ==> code in r.buyPrices && r.buyPrices[code] == price
    ensures o == Filled ==> code in r.trailingStops && r.trailingStops[code] == price
    ensures o == Filled ==> r.buyPrices - {code} == b.buyPrices - {code}
    ensures o == Filled ==> r.trailingStops - {code} == b.trailingStops - {code}
    ensures o != Filled ==> r == b
    ensures r.bought == b.bought && r.holdings == b.holdings
  {
    if o == Filled then
      b.(buyPrices := b.buyPrices[code := price], trailingStops := b.trailingStops[code := price])
    else b
  }

  /** Ledger effect of a sell order: an accepted sell forgets the symbol's
      entry price and high-water mark, whether or not it had them. */
  function RecordSell(b: Book, code: Symbol, o: Order): (r: Book)
    ensures o == Filled ==> code !in r.buyPrices && code !in r.trailingStops
    ensures o == Filled ==> r.buyPrices == b.buyPrices - {code}
    ensures o == Filled ==> r.trailingStops == b.trailingStops - {code}
    ensures o != Filled ==> r == b
    ensures r.bought == b.bought && r.holdings == b.holdings
  {
    if o == Filled then
      b.(buyPrices := b.buyPrices - {code}, trailingStops := b.trailingStops - {code})
    else b
  }

  /** Position of the first occurrence of `x` in `s`; `|s|` when there is none. */
  function FirstIndex(s: seq<Symbol>, x: Symbol): (i: nat)
    ensures i <= |s| && x !in s[..i]
    ensures i < |s| <==> x in s
    ensures i < |s| ==> s[i] == x
  {
    if |s| == 0 then 0
    else if s[0] == x then 0
    else
      var j := FirstIndex(s[1..], x);
      assert s[..j + 1] == [s[0]] + s[1..][..j];
      j + 1
  }

  /** The held-list with the first occurrence of `x` removed, as a list
      removal does: the other symbols keep their order, and a list without
      `x` comes back unchanged. */
  function RemoveFirst(s: seq<Symbol>, x: Symbol): (r: seq<Symbol>)
    ensures x in s ==> r == s[..FirstIndex(s, x)] + s[FirstIndex(s, x) + 1..]
    ensures x !in s ==> r == s
  {
    if |s| == 0 then s
    else if s[0] == x then s[1..]
    else
      var t := RemoveFirst(s[1..], x);
      if x in s then
        var i := FirstIndex(s, x);
        assert i == FirstIndex(s[1..], x) + 1;
        assert s[..i] == [s[0]] + s[1..][..i - 1];
        assert s[i + 1..] == s[1..][i..];
        [s[0]] + t
      else
        assert s == [s[0]] + s[1..];
        [s[0]] + t
  }

  /** Removing a present symbol takes out exactly one occurrence of it and
      nothing else, and never introduces a symbol. */
  lemma RemoveFirstCounts(s: seq<Symbol>, x: Symbol)
    ensures x in s ==> |RemoveFirst(s, x)| == |s| - 1
    ensures x in s ==> multiset(RemoveFirst(s, x)) == multiset(s) - multiset{x}
    ensures forall y :: y in RemoveFirst(s, x) ==> y in s
    ensures forall y :: y in s && y != x ==> y in RemoveFirst(s, x)
  {
    if x in s {
      var i := FirstIndex(s, x);
      var r := RemoveFirst(s, x);
      var pre, post := s[..i], s[i + 1..];
      assert r == pre + post;
      assert s == pre + [x] + post;
      assert multiset(s) == multiset(pre) + multiset{x} + multiset(post);
      assert multiset(r) == multiset(pre) + multiset(post);
      forall y | y in r ensures y in s {
        assert y in multiset(r);
      }
      forall y | y in s && y != x ensures y in r {
        assert y in multiset(s);
      }
    }
  }

  /** Removing from a list without repeats removes the symbol altogether and
      keeps the list free of repeats. */
  lemma RemoveFirstNoDup(s: seq<Symbol>, x: Symbol)
    ensures NoDup(s) ==> NoDup(RemoveFirst(s, x)) && x !in RemoveFirst(s, x)
  {
  }

  /** After an accepted sell in the risk step: the ledger forgets the symbol,
      and the held-list and holdings drop it. Removing a symbol that is not on
      the held-list raises before the holdings are touched. */
  function Close(b: Book, code: Symbol): (r: Book)
    ensures code !in r.buyPrices && code !in r.trailingStops
    ensures r.buyPrices == b.buyPrices - {code} && r.trailingStops == b.trailingStops - {code}
    ensures code in b.bought ==> multiset(r.bought) == multiset(b.bought) - multiset{code}
    ensures code in b.bought ==> r.holdings == b.holdings - {code}
    ensures code !in b.bought ==> r.bought == b.bought && r.holdings == b.holdings
    ensures NoDup(b.bought) ==> NoDup(r.bought) && code !in r.bought
    ensures forall c :: c in b.bought && c != code ==> c in r.bought
  {
    RemoveFirstNoDup(b.bought, code);
    RemoveFirstCounts(b.bought, code);
    var sold := RecordSell(b, code, Filled);
    if code in b.bought then
      sold.(bought := RemoveFirst(b.bought, code), holdings := b.holdings - {code})
    else sold
  }

  /** A buy followed by a sell of the same symbol leaves the price maps as
      they were, minus that symbol; the held-list and holdings are untouched. */
  lemma BuyThenSell(b: Book, code: Symbol, price: real)
    ensures RecordSell(RecordBuy(b, code, price, Filled), code, Filled)
      == b.(buyPrices := b.buyPrices - {code}, trailingStops := b.trailingStops - {code})
    ensures code !in b.buyPrices && code !in b.trailingStops ==>
      RecordSell(RecordBuy(b, code, price, Filled), code, Filled) == b
  {
  }

  /** Orders keep the two price maps in step. */
  lemma OrdersKeepTracked(b: Book, code: Symbol, price: real, o: Order)
    requires Tracked(b)
    ensures Tracked(RecordBuy(b, code, price, o))
    ensures Tracked(RecordSell(b, code, o))
    ensures Tracked(Close(b, code))
  {
  }
}

=== FILE: market.dfy ===
/** Vocabulary shared by every part of the trading model: ticker symbols,
    optional values, rows of the broker's daily-price payload, and the
    outcome of a broker order. */
module Market {

  /** A ticker code such as "AAPL". */
  type Symbol = string

  datatype Option<T> = None | Some(value: T)

  /** One row of the daily-price payload, after each field went through the
      float conversion: `Some(x)` for a field that converts to `x`, `None`
      for a field whose text the conversion rejects (it raises). A field that
      is not in the map is missing from the row. */
  type Row = map<string, Option<real>>

  /** What a call to the broker's order endpoint yields: the order was
      accepted (`rt_cd` is "0"), it was declined, or the call raised before
      an answer could be read. */
  datatype Order = Filled | Rejected | Raised

  /** The outcome recorded for `code`; a symbol the broker map does not
      mention stands for a call that raised. */
  function OutcomeFor(orders: map<Symbol, Order>, code: Symbol): Order
  {
    if code in orders then orders[code] else Raised
  }

  /** Sequence has no repeated element (the held-list never holds a symbol twice). */
  predicate NoDup<T(==)>(s: seq<T>)
  {
    forall i, j :: 0 <= i < j < |s| ==> s[i] != s[j]
  }
}

=== FILE: risk.dfy ===
/** The risk step of the trading window: for every held symbol with an entry
    price, raise its high-water mark to the fetched price, decide which exit
    rule applies, and sell when the rule fires and the broker reports the
    symbol as held. */
module Risk {
  import opened Market
  import opened Ledger
  import opened ExitRules

  /** The price fetched for `code`, or `None` when the quote call raised. */
  function QuoteFor(quotes: map<Symbol, real>, code: Symbol): Option<real>
  {
    if code in quotes then Some(quotes[code]) else None
  }

  /** One symbol's turn in the risk step. A symbol without an entry price is
      skipped, and so is one whose quote call raised; otherwise the
      high-water mark is raised first and the rules see the raised mark. A
      sell that is declined or raises leaves the symbol held. */
  function Assess(b: Book, code: Symbol, quote: Option<real>, sell: Order): (r: Book)
    ensures code !in b.buyPrices || quote.None? ==> r == b
    ensures code in b.buyPrices && quote.Some? ==>
      (code !in r.buyPrices <==>
        Decide(b.buyPrices, UpdateTrailingStop(b.trailingStops, code, quote.value), code, quote.value) != Hold
        && code in b.holdings && sell == Filled)
    ensures code in b.buyPrices && quote.Some? && code in r.trailingStops ==>
      r.trailingStops[code] >= quote.value
    ensures forall c :: c in r.buyPrices ==> c in b.buyPrices && r.buyPrices[c] == b.buyPrices[c]
    ensures forall c :: c in b.buyPrices && c != code ==> c in r.buyPrices
    ensures forall c :: c in b.trailingStops && c in r.trailingStops ==> r.trailingStops[c] >= b.trailingStops[c]
    ensures r.trailingStops.Keys <= b.trailingStops.Keys + b.buyPrices.Keys
    ensures forall c :: c in b.trailingStops && c != code ==> c in r.trailingStops && r.trailingStops[c] == b.trailingStops[c]
    ensures Tracked(b) ==> Tracked(r)
    ensures multiset(r.bought) <= multiset(b.bought)
    ensures NoDup(b.bought) ==> NoDup(r.bought)
    ensures forall c :: c in r.holdings ==> c in b.holdings && r.holdings[c] == b.holdings[c]
    ensures code in b.buyPrices && quote.Some? && code in r.buyPrices ==>
      r == b.(trailingStops := UpdateTrailingStop(b.trailingStops, code, quote.value))
    ensures code in b.buyPrices && quote.Some? && code !in r.buyPrices && code in b.bought ==>
      r.bought == RemoveFirst(b.bought, code) && r.holdings == b.holdings - {code}
    ensures code !in b.buyPrices || code in r.buyPrices ==> r.bought == b.bought && r.holdings == b.holdings
    ensures code in b.buyPrices && quote.Some? && code !in r.buyPrices ==> code !in r.trailingStops
    ensures forall c :: c in b.bought && c !in r.bought ==> c == code
    ensures forall c :: c in b.holdings && c !in r.holdings ==> c == code
  {
    if code !in b.buyPrices then b
    else match quote
      case None => b
      case Some(p) =>
        var raised := b.(trailingStops := UpdateTrailingStop(b.trailingStops, code, p));
        if Decide(raised.buyPrices, raised.trailingStops, code, p) != Hold && code in raised.holdings && sell == Filled
        then
          Close(raised, code)
        else raised
  }

  /** The risk step over a snapshot of the held-list, symbol by symbol in
      list order, each seeing the book its predecessors left. */
  function RiskPass(b: Book, codes: seq<Symbol>, quotes: map<Symbol, real>, sells: map<Symbol, Order>): Book
    decreases |codes|
  {
    if |codes| == 0 then b
    else
      var code := codes[0];
      RiskPass(Assess(b, code, QuoteFor(quotes, code), OutcomeFor(sells, code)), codes[1..], quotes, sells)
  }

  /** Entry prices under the risk step: never rewritten, and a position
      leaves the ledger only through an accepted sell of an examined symbol
      that was quoted and that the broker holds. */
  lemma {:induction false} RiskPassEntries(b: Book, codes: seq<Symbol>, quotes: map<Symbol, real>, sells: map<Symbol, Order>)
    decreases |codes|
    ensures var r := RiskPass(b, codes, quotes, sells);
      && (forall c :: c in r.buyPrices ==> c in b.buyPrices && r.buyPrices[c] == b.buyPrices[c])
      && (forall c :: c in b.buyPrices && c !in r.buyPrices ==>
            c in codes && c in quotes && c in b.holdings && OutcomeFor(sells, c) == Filled)
  {
    if |codes| > 0 {
      var code := codes[0];
      var next := Assess(b, code, QuoteFor(quotes, code), OutcomeFor(sells, code));
      var r := RiskPass(next, codes[1..], quotes, sells);
      RiskPassEntries(next, codes[1..], quotes, sells);
      forall c | c in b.buyPrices && c !in r.buyPrices
        ensures c in codes && c in quotes && c in b.holdings && OutcomeFor(sells, c) == Filled
      {
        if c in next.buyPrices {
          assert c in codes[1..];
          RiskPassHoldingsStep(b, code, QuoteFor(quotes, code), OutcomeFor(sells, code), c);
        } else {
          assert c == code;
        }
      }
    }
  }

  /** Holdings an Assess keeps are holdings it was given. */
  lemma RiskPassHoldingsStep(b: Book, code: Symbol, quote: Option<real>, sell: Order, c: Symbol)
    requires c in Assess(b, code, quote, sell).holdings
    ensures c in b.holdings
  {
  }

  /** High-water marks under the risk step only rise, and the step marks no
      symbol that had neither a mark nor an entry price. */
  lemma {:induction false} RiskPassMarksRise(b: Book, codes: seq<Symbol>, quotes: map<Symbol, real>, sells: map<Symbol, Order>)
    decreases |codes|
    ensures var r := RiskPass(b, codes, quotes, sells);
      && r.trailingStops.Keys <= b.trailingStops.Keys + b.buyPrices.Keys
      && (forall c :: c in b.trailingStops && c in r.trailingStops ==> r.trailingStops[c] >= b.trailingStops[c])
  {
    if |codes| > 0 {
      var code := codes[0];
      var next := Assess(b, code, QuoteFor(quotes, code), OutcomeFor(sells, code));
      var r := RiskPass(next, codes[1..], quotes, sells);
      RiskPassMarksRise(next, codes[1..], quotes, sells);
      assert next.trailingStops.Keys <= b.trailingStops.Keys + b.buyPrices.Keys;
      assert next.buyPrices.Keys <= b.buyPrices.Keys;
      forall c | c in b.trailingStops && c in r.trailingStops
        ensures r.trailingStops[c] >= b.trailingStops[c]
      {
        assert c in next.trailingStops;
      }
    }
  }

  /** Marks of symbols the step does not examine stay exactly as they were. */
  lemma {:induction false} RiskPassMarksUntouched(b: Book, codes: seq<Symbol>, quotes: map<Symbol, real>, sells: map<Symbol, Order>)
    decreases |codes|
    ensures var r := RiskPass(b, codes, quotes, sells);
      forall c :: c in b.trailingStops && c !in codes ==> c in r.trailingStops && r.trailingStops[c] == b.trailingStops[c]
  {
    if |codes| > 0 {
      var code := codes[0];
      var next := Assess(b, code, QuoteFor(quotes, code), OutcomeFor(sells, code));
      RiskPassMarksUntouched(next, codes[1..], quotes, sells);
      forall c | c in b.trailingStops && c !in codes
        ensures c in next.trailingStops && next.trailingStops[c] == b.trailingStops[c] && c !in codes[1..]
      {
      }
    }
  }

  /** The high-water mark is raised before any rule is consulted: every
      examined, quoted position that survives the step ends with a mark at
      least its fetched price. */
  lemma {:induction false} RiskPassMarksCoverQuote(b: Book, codes: seq<Symbol>, quotes: map<Symbol, real>, sells: map<Symbol, Order>)
    decreases |codes|
    ensures var r := RiskPass(b, codes, quotes, sells);
      forall c :: c in codes && c in b.buyPrices && c in quotes && c in r.trailingStops ==> r.trailingStops[c] >= quotes[c]
  {
    if |codes| > 0 {
      var code := codes[0];
      var next := Assess(b, code, QuoteFor(quotes, code), OutcomeFor(sells, code));
      var r := RiskPass(next, codes[1..], quotes, sells);
      RiskPassMarksCoverQuote(next, codes[1..], quotes, sells);
      RiskPassMarksRise(next, codes[1..], quotes, sells);
      forall c | c in codes && c in b.buyPrices && c in quotes && c in r.trailingStops
        ensures r.trailingStops[c] >= quotes[c]
      {
        if c == code {
          assert c in next.trailingStops;
          assert next.trailingStops[c] >= quotes[c];
        } else {
          assert c in codes[1..];
          assert c in next.buyPrices;
        }
      }
    }
  }

  /** The risk step keeps the entry-price and high-water-mark maps in step. */
  lemma {:induction false} RiskPassTracked(b: Book, codes: seq<Symbol>, quotes: map<Symbol, real>, sells: map<Symbol, Order>)
    requires Tracked(b)
    decreases |codes|
    ensures Tracked(RiskPass(b, codes, quotes, sells))
  {
    if |codes| > 0 {
      var code := codes[0];
      RiskPassTracked(Assess(b, code, QuoteFor(quotes, code), OutcomeFor(sells, code)), codes[1..], quotes, sells);
    }
  }

  /** What the risk step can do to the held-list and holdings: it only ever
      drops symbols, keeps the list free of repeats, and never alters a
      remaining quantity; a symbol leaves the held-list or the holdings only
      together with its entry price, that is, through an accepted sell. */
  lemma {:induction false} RiskPassHoldings(b: Book, codes: seq<Symbol>, quotes: map<Symbol, real>, sells: map<Symbol, Order>)
    decreases |codes|
    ensures var r := RiskPass(b, codes, quotes, sells);
      && multiset(r.bought) <= multiset(b.bought)
      && (NoDup(b.bought) ==> NoDup(r.bought))
      && (forall c :: c in r.holdings ==> c in b.holdings && r.holdings[c] == b.holdings[c])
      && (forall c :: (c in b.bought && c !in r.bought) || (c in b.holdings && c !in r.holdings) ==>
            c in b.buyPrices && c !in r.buyPrices)
  {
    if |codes| > 0 {
      var code := codes[0];
      var next := Assess(b, code, QuoteFor(quotes, code), OutcomeFor(sells, code));
      var r := RiskPass(next, codes[1..], quotes, sells);
      RiskPassHoldings(next, codes[1..], quotes, sells);
      RiskPassEntries(next, codes[1..], quotes, sells);
      forall c | (c in b.bought && c !in r.bought) || (c in b.holdings && c !in r.holdings)
        ensures c in b.buyPrices && c !in r.buyPrices
      {
        if (c in b.bought && c !in next.bought) || (c in b.holdings && c !in next.holdings) {
          assert c in b.buyPrices && c !in next.buyPrices;
        } else {
          assert c in next.buyPrices;
        }
      }
    }
  }

  /** The risk step proper: the pass over a copy of the held-list taken when
      the step starts. */
  function RiskStep(b: Book, quotes: map<Symbol, real>, sells: map<Symbol, Order>): Book
  {
    RiskPass(b, b.bought, quotes, sells)
  }

  /** A stop-loss on a symbol the broker reports as held, with the sell
      accepted, closes the position at once, whatever the high-water mark. */
  lemma StopLossCloses(b: Book, code: Symbol, p: real)
    requires code in b.buyPrices && code in b.holdings && code in b.bought
    requires StopLoss(b.buyPrices, code, p, LiveStopLossPct)
    ensures var r := Assess(b, code, Some(p), Filled);
      code !in r.buyPrices && code !in r.trailingStops && code !in r.holdings
      && multiset(r.bought) == multiset(b.bought) - multiset{code}
  {
  }

  /** A symbol the broker does not report as held is never sold by the risk
      step, even when a rule fires; only its high-water mark moves. */
  lemma UnheldNeverSold(b: Book, code: Symbol, quote: Option<real>, sell: Order)
    requires code !in b.holdings
    ensures var r := Assess(b, code, quote, sell);
      r.buyPrices == b.buyPrices && r.bought == b.bought && r.holdings == b.holdings
  {
  }

  /** The take-profit-while-armed behaviour at the level of the risk step:
      entry 100, high-water mark 105, price 104, held, sell accepted: the
      position is closed although trailing protection is armed. */
  lemma ArmedPositionTakesProfit(b: Book, code: Symbol)
    requires b.buyPrices == map[code := 100.0] && b.trailingStops == map[code := 105.0]
    requires code in b.holdings && b.bought == [code]
    ensures Armed(b.buyPrices, b.trailingStops, code)
    ensures var r := Assess(b, code, Some(104.0), Filled);
      r.buyPrices == map[] && r.trailingStops == map[] && r.bought == []
  {
  }
}

=== FILE: session.dfy ===
/** The daily session of the trading script as a step function from New York
    wall-clock time to the next state: a liquidation just after the open, a
    trading window with the risk step and the entry scan, a close-out
    liquidation, and the exit. A one-shot `soldout` flag guards both
    liquidations; a successful buy re-arms it. */
module Session {
  import opened Market
  import opened Ledger
  import Risk
  import TargetPrice

  /** How many symbols the script aims to hold at once. */
  const TargetBuyCount: int := 4

  /** Share of cash allotted to one symbol (the allotment itself is computed
      at start-up and enters the model as `Config.buyAmount`). */
  const BuyPercent: real := 0.25

  /** Microseconds since midnight at `h:m:s`. */
  function Hms(h: int, m: int, s: int): int
  {
    ((h * 60 + m) * 60 + s) * 1000000
  }

  const OpenAt: int := Hms(9, 30, 0)
  const StartAt: int := Hms(9, 35, 0)
  const SellAt: int := Hms(15, 45, 0)
  const ExitAt: int := Hms(15, 50, 0)
  const CloseAt: int := Hms(16, 0, 0)

  /** New York wall-clock time: weekday (Monday 0 to Sunday 6) and
      microseconds since midnight. */
  datatype Clock = Clock(weekday: int, micros: int)

  /** Regular trading hours: a weekday, from 9:30 to 16:00 inclusive. */
  predicate IsMarketOpen(c: Clock)
  {
    c.weekday != 5 && c.weekday != 6 && OpenAt <= c.micros <= CloseAt
  }

  /** The market is open exactly on weekdays Monday to Friday between 9:30
      and 16:00 inclusive, that is between 34200 and 57600 seconds after
      midnight. */
  lemma MarketHours(c: Clock)
    requires 0 <= c.weekday <= 6
    ensures IsMarketOpen(c) <==> c.weekday < 5 && 34200 * 1000000 <= c.micros <= 57600 * 1000000
  {
  }

  /** The part of the loop a time of day selects; the bounds are strict, so
      the boundary instants select none. */
  datatype Window = PreOpen | Trading | CloseOut | AfterExit | NoWindow

  function WindowAt(t: int): Window
  {
    if OpenAt < t < StartAt then PreOpen
    else if StartAt < t < SellAt then Trading
    else if SellAt < t < ExitAt then CloseOut
    else if ExitAt < t then AfterExit
    else NoWindow
  }

  /** The loop's four time tests are mutually exclusive, so one pass runs at
      most one of them and their order does not matter; each boundary
      instant falls into no window, and the opening and closing instants
      count as market hours. */
  lemma WindowsExclusive(c: Clock)
    ensures !(OpenAt < c.micros < StartAt && StartAt < c.micros < SellAt)
    ensures !(StartAt < c.micros < SellAt && SellAt < c.micros < ExitAt)
    ensures !(SellAt < c.micros < ExitAt && ExitAt < c.micros)
    ensures WindowAt(OpenAt) == NoWindow && WindowAt(StartAt) == NoWindow
    ensures WindowAt(SellAt) == NoWindow && WindowAt(ExitAt) == NoWindow
    ensures 0 <= c.weekday < 5 && (c.micros == OpenAt || c.micros == CloseAt) ==> IsMarketOpen(c)
    ensures c.weekday == 5 || c.weekday == 6 ==> !IsMarketOpen(c)
  {
  }

  /** Everything the step remembers from one pass to the next. */
  datatype State = State(book: Book, soldout: bool, announced: set<Symbol>)

  /** Fixed for the run: the watch-list in scan order, the dollar amount
      allotted per symbol, and the statistics applied to daily returns. */
  datatype Config = Config(watchList: seq<Symbol>, buyAmount: real, annualise: seq<real> -> real)

  /** What the outside world answers during one pass: the clock; quotes for
      the risk step and the liquidations; sell outcomes; daily rows per
      symbol for the target price; quotes for the entry scan; buy outcomes;
      and the broker's holdings report. A symbol missing from a map stands
      for a call that raised. */
  datatype Tick = Tick(
    clock: Clock,
    quotes: map<Symbol, real>,
    sells: map<Symbol, Order>,
    daily: map<Symbol, seq<Row>>,
    entryQuotes: map<Symbol, real>,
    buys: map<Symbol, Order>,
    balance: Option<map<Symbol, int>>)

  /** The loop carries on with a new state, leaves normally, or is ended by
      an exception nothing inside the loop catches. */
  datatype Next = Continue(state: State) | Stopped | Crashed

  /** Whole shares the allotment buys at price `p` (floor division). */
  function Shares(amount: real, p: real): int
    requires p != 0.0
  {
    (amount / p).Floor
  }

  /** The conditions under which the entry scan places a buy for `sym`: a
      free slot, the symbol not held, a target computed, a quote fetched, the
      quote above the target, and at least one whole share affordable. */
  predicate BuyPlaced(cfg: Config, s: State, sym: Symbol, t: Tick)
  {
    && |s.book.bought| < TargetBuyCount
    && sym !in s.book.bought
    && sym in t.daily
    && TargetPrice.ReadBars(t.daily[sym]).Some?
    && sym in t.entryQuotes
    && TargetPrice.GetTarget(s.announced, sym, t.daily[sym], cfg.annualise).value.price < t.entryQuotes[sym]
    && t.entryQuotes[sym] != 0.0
    && Shares(cfg.buyAmount, t.entryQuotes[sym]) > 0
  }

  /** One symbol's turn in the entry scan. */
  function TryEnter(cfg: Config, s: State, sym: Symbol, t: Tick): (r: State)
    ensures r.book.bought == s.book.bought || r.book.bought == s.book.bought + [sym]
    ensures r.book.bought == s.book.bought + [sym] <==> BuyPlaced(cfg, s, sym, t) && OutcomeFor(t.buys, sym) == Filled
    ensures r.book.bought != s.book.bought ==>
      && |s.book.bought| < TargetBuyCount && sym !in s.book.bought && !r.soldout
      && sym in r.book.buyPrices && sym in r.book.trailingStops
      && r.book.buyPrices[sym] == t.entryQuotes[sym] && r.book.trailingStops[sym] == t.entryQuotes[sym]
      && r.book.buyPrices - {sym} == s.book.buyPrices - {sym}
      && r.book.trailingStops - {sym} == s.book.trailingStops - {sym}
    ensures r.book.bought == s.book.bought ==>
      r.book == s.book && r.soldout == s.soldout
    ensures r.book.holdings == s.book.holdings
    ensures r.announced == s.announced || r.announced == s.announced + {sym}
    ensures r.announced != s.announced ==> sym in t.daily && TargetPrice.ReadBars(t.daily[sym]).Some?
    ensures |s.book.bought| < TargetBuyCount && sym !in s.book.bought && sym in t.daily && TargetPrice.ReadBars(t.daily[sym]).Some? ==>
      r.announced == s.announced + {sym}
    ensures |s.book.bought| >= TargetBuyCount || sym in s.book.bought ==> r == s
  {
    if |s.book.bought| >= TargetBuyCount || sym in s.book.bought || sym !in t.daily then s
    else match TargetPrice.GetTarget(s.announced, sym, t.daily[sym], cfg.annualise)
      case None => s
      case Some(c) =>
        var s1 := s.(announced := c.announced);
        if sym !in t.entryQuotes then s1
        else
          var p := t.entryQuotes[sym];
          if !(c.price < p) || p == 0.0 || Shares(cfg.buyAmount, p) <= 0 then s1
          else if OutcomeFor(t.buys, sym) != Filled then s1
          else
            var bought := RecordBuy(s1.book, sym, p, Filled);
            State(bought.(bought := s1.book.bought + [sym]), false, s1.announced)
  }

  /** The entry scan: the watch-list in order, each symbol seeing the state
      its predecessors left. */
  function Enter(cfg: Config, s: State, syms: seq<Symbol>, t: Tick): State
    decreases |syms|
  {
    if |syms| == 0 then s
    else Enter(cfg, TryEnter(cfg, s, syms[0], t), syms[1..], t)
  }

  /** What the entry scan does to the held-list: it only appends, and only
      watch-list symbols; it never fills a slot beyond the target count (nor
      adds anything once the list is at or past it); it keeps the list free
      of repeats; and `soldout` ends up false exactly when it was false or
      some buy went through. */
  lemma {:induction false} EnterBought(cfg: Config, s: State, syms: seq<Symbol>, t: Tick)
    decreases |syms|
    ensures var r := Enter(cfg, s, syms, t);
      && |s.book.bought| <= |r.book.bought|
      && r.book.bought[..|s.book.bought|] == s.book.bought
      && (forall i :: |s.book.bought| <= i < |r.book.bought| ==> r.book.bought[i] in syms)
      && (|s.book.bought| < TargetBuyCount ==> |r.book.bought| <= TargetBuyCount)
      && (|s.book.bought| >= TargetBuyCount ==> r.book.bought == s.book.bought)
      && (NoDup(s.book.bought) ==> NoDup(r.book.bought))
      && (r.soldout <==> s.soldout && r.book.bought == s.book.bought)
      && r.book.holdings == s.book.holdings
  {
    if |syms| > 0 {
      var next := TryEnter(cfg, s, syms[0], t);
      var r := Enter(cfg, next, syms[1..], t);
      EnterBought(cfg, next, syms[1..], t);
      var n := |s.book.bought|;
      assert next.book.bought[..n] == s.book.bought;
      assert r.book.bought[..|next.book.bought|] == next.book.bought;
      assert r.book.bought[..n] == s.book.bought by {
        assert r.book.bought[..n] == r.book.bought[..|next.book.bought|][..n];
      }
      forall i | n <= i < |r.book.bought| ensures r.book.bought[i] in syms {
        if i < |next.book.bought| {
          assert r.book.bought[i] == next.book.bought[i] == syms[0];
        } else {
          assert r.book.bought[i] in syms[1..];
        }
      }
      if NoDup(s.book.bought) && next.book.bought != s.book.bought {
        var nb := next.book.bought;
        forall i, j | 0 <= i < j < |nb| ensures nb[i] != nb[j] {
          if j == n {
            assert nb[i] == s.book.bought[i];
          }
        }
      }
      if r.soldout && !(s.soldout && r.book.bought == s.book.bought) {
        assert next.book.bought == s.book.bought;
      }
    }
  }

  /** What the entry scan does to the ledger: the two price maps stay in
      step, no zero entry price appears, and the entry price and mark of a symbol already held are not
      touched (a buy only ever targets an unheld symbol). */
  lemma {:induction false} EnterLedger(cfg: Config, s: State, syms: seq<Symbol>, t: Tick)
    decreases |syms|
    ensures var r := Enter(cfg, s, syms, t);
      && (Tracked(s.book) ==> Tracked(r.book))
      && (PricedEntries(s.book) ==> PricedEntries(r.book))
      && (forall c :: c in s.book.bought && c in s.book.buyPrices ==>
            c in r.book.buyPrices && r.book.buyPrices[c] == s.book.buyPrices[c])
      && (forall c :: c in s.book.bought && c in s.book.trailingStops ==>
            c in r.book.trailingStops && r.book.trailingStops[c] == s.book.trailingStops[c])
  {
    if |syms| > 0 {
      var next := TryEnter(cfg, s, syms[0], t);
      EnterLedger(cfg, next, syms[1..], t);
      EnterBought(cfg, s, [syms[0]], t);
      forall c | c in s.book.bought ensures c in next.book.bought {
        assert next.book.bought[..|s.book.bought|] == s.book.bought;
      }
    }
  }

  /** The held-list is refilled up to the target count at most. */
  lemma EnterBounded(cfg: Config, s: State, t: Tick)
    ensures |Enter(cfg, s, cfg.watchList, t).book.bought| <= if |s.book.bought| < TargetBuyCount then TargetBuyCount else |s.book.bought|
  {
    EnterBought(cfg, s, cfg.watchList, t);
  }

  /** What the entry scan does to the announced-set: it only grows, only by
      scanned symbols whose target could be computed and that were not held
      when the scan began, not at all when the list starts full, and, when
      the scan ends with a free slot, it holds every scanned, readable symbol
      that was not already held when the scan began. */
  lemma {:induction false} EnterAnnounced(cfg: Config, s: State, syms: seq<Symbol>, t: Tick)
    decreases |syms|
    ensures var r := Enter(cfg, s, syms, t);
      && s.announced <= r.announced
      && (forall c :: c in r.announced && c !in s.announced ==>
            c in syms && c in t.daily && TargetPrice.ReadBars(t.daily[c]).Some?)
      && (forall c :: c in r.announced && c !in s.announced ==> c !in s.book.bought)
      && (|s.book.bought| >= TargetBuyCount ==> r.announced == s.announced)
      && (|r.book.bought| < TargetBuyCount ==>
            forall c :: c in syms && c !in s.book.bought && c in t.daily && TargetPrice.ReadBars(t.daily[c]).Some? ==>
              c in r.announced)
  {
    if |syms| > 0 {
      var next := TryEnter(cfg, s, syms[0], t);
      var r := Enter(cfg, next, syms[1..], t);
      EnterAnnounced(cfg, next, syms[1..], t);
      EnterBought(cfg, next, syms[1..], t);
      forall c | c in s.book.bought ensures c in next.book.bought {
        assert next.book.bought[..|s.book.bought|] == s.book.bought;
      }
      if |r.book.bought| < TargetBuyCount {
        forall c | c in syms && c !in s.book.bought && c in t.daily && TargetPrice.ReadBars(t.daily[c]).Some?
          ensures c in r.announced
        {
          if c == syms[0] {
            assert c in next.announced;
          } else {
            assert c in syms[1..];
          }
        }
      }
    }
  }

  /** The entry scan never drops an entry price, and leaves the holdings as
      they were: a buy is not followed by a fresh holdings report. */
  lemma {:induction false} EnterKeepsEntries(cfg: Config, s: State, syms: seq<Symbol>, t: Tick)
    decreases |syms|
    ensures var r := Enter(cfg, s, syms, t);
      && s.book.buyPrices.Keys <= r.book.buyPrices.Keys
      && r.book.holdings == s.book.holdings
  {
    if |syms| > 0 {
      EnterKeepsEntries(cfg, TryEnter(cfg, s, syms[0], t), syms[1..], t);
    }
  }

  /** The trading window: the risk step over the held positions, then the
      entry scan over the watch-list. */
  function TradeStep(cfg: Config, s: State, t: Tick): State
  {
    Enter(cfg, s.(book := Risk.RiskStep(s.book, t.quotes, t.sells)), cfg.watchList, t)
  }

  /** The half-hourly holdings refresh of the trading window is due: minute
      30 of the hour, within its first ten whole seconds. */
  predicate RefreshDue(c: Clock)
  {
    (c.micros / 60000000) % 60 == 30 && (c.micros / 1000000) % 60 <= 10
  }

  /** A trading pass: the risk step and the entry scan, then, when due, the
      holdings refresh, whose result is discarded but whose failure nothing
      in the loop catches. */
  function TradingPass(cfg: Config, s: State, t: Tick): Next
  {
    if RefreshDue(t.clock) && t.balance.None? then Crashed
    else Continue(TradeStep(cfg, s, t))
  }

  /** Every sell of a liquidation over `holdings` returns without raising:
      the quote was fetched and the order endpoint answered. */
  predicate LiquidationCompletes(holdings: map<Symbol, int>, t: Tick)
  {
    forall c :: c in holdings ==> c in t.quotes && OutcomeFor(t.sells, c) != Raised
  }

  /** The symbols whose liquidation sell the broker accepts. */
  function SoldIn(holdings: map<Symbol, int>, t: Tick): set<Symbol>
  {
    set c | c in holdings && c in t.quotes && OutcomeFor(t.sells, c) == Filled
  }

  /** Ledger after a liquidation over `holdings`: accepted sells forget their
      symbols' prices, and the held-list is emptied. */
  function Liquidate(b: Book, holdings: map<Symbol, int>, t: Tick): (r: Book)
    ensures r.bought == [] && r.holdings == b.holdings
    ensures forall c :: c in r.buyPrices ==> c in b.buyPrices && r.buyPrices[c] == b.buyPrices[c]
    ensures forall c :: c in b.buyPrices && c !in r.buyPrices ==> c in holdings && c in t.quotes && OutcomeFor(t.sells, c) == Filled
    ensures forall c :: c in holdings && c in t.quotes && OutcomeFor(t.sells, c) == Filled ==>
      c !in r.buyPrices && c !in r.trailingStops
    ensures forall c :: c in r.trailingStops ==> c in b.trailingStops && r.trailingStops[c] == b.trailingStops[c]
    ensures forall c :: c in b.trailingStops && c !in SoldIn(holdings, t) ==>
      c in r.trailingStops && r.trailingStops[c] == b.trailingStops[c]
    ensures forall c :: c in b.buyPrices && c !in SoldIn(holdings, t) ==> c in r.buyPrices
    ensures Tracked(b) ==> Tracked(r)
  {
    var sold := SoldIn(holdings, t);
    b.(buyPrices := b.buyPrices - sold, trailingStops := b.trailingStops - sold, bought := [])
  }

  /** Just after the open: liquidate whatever the broker reports as held,
      once; then take a fresh holdings report. */
  function PreOpenStep(s: State, t: Tick): Next
  {
    if s.soldout then Continue(s)
    else if !LiquidationCompletes(s.book.holdings, t) then Crashed
    else match t.balance
      case None => Crashed
      case Some(h) => Continue(State(Liquidate(s.book, s.book.holdings, t).(holdings := h), true, s.announced))
  }

  /** Before the close: take a fresh holdings report and liquidate it, once. */
  function CloseOutStep(s: State, t: Tick): Next
  {
    if s.soldout then Continue(s)
    else match t.balance
      case None => Crashed
      case Some(h) =>
        if !LiquidationCompletes(h, t) then Crashed
        else Continue(State(Liquidate(s.book.(holdings := h), h, t), true, s.announced))
  }

  /** One pass of the main loop. */
  function Step(cfg: Config, s: State, t: Tick): Next
  {
    if !IsMarketOpen(t.clock) then Stopped
    else match WindowAt(t.clock.micros)
      case PreOpen => PreOpenStep(s, t)
      case Trading => TradingPass(cfg, s, t)
      case CloseOut => CloseOutStep(s, t)
      case AfterExit => Stopped
      case NoWindow => Continue(s)
  }

  /** The loop leaves on a closed market and after the exit time; a pass at
      one of the boundary instants 9:30, 9:35, 15:45 or 15:50 does nothing. */
  lemma StepStops(cfg: Config, s: State, t: Tick)
    ensures !IsMarketOpen(t.clock) ==> Step(cfg, s, t) == Stopped
    ensures IsMarketOpen(t.clock) && t.clock.micros > ExitAt ==> Step(cfg, s, t) == Stopped
    ensures Step(cfg, s, t) == Stopped ==> !IsMarketOpen(t.clock) || t.clock.micros > ExitAt
    ensures IsMarketOpen(t.clock) && WindowAt(t.clock.micros) == NoWindow ==> Step(cfg, s, t) == Continue(s)
  {
  }

  /** A trading pass ends the program exactly when the holdings refresh is
      due and the holdings call raises; otherwise it carries on with the state
      the risk step and the entry scan leave, the refresh changing nothing. */
  lemma RefreshFailureCrashes(cfg: Config, s: State, t: Tick)
    requires IsMarketOpen(t.clock) && WindowAt(t.clock.micros) == Trading
    ensures Step(cfg, s, t) == Crashed <==> RefreshDue(t.clock) && t.balance.None?
    ensures Step(cfg, s, t) != Crashed ==> Step(cfg, s, t) == Continue(TradeStep(cfg, s, t))
  {
  }

  /** On a Monday, a raising holdings call at 10:30:05 ends the program; at
      10:30:11 the refresh is not due and the pass carries on. */
  lemma RefreshWindowExample(cfg: Config, s: State, t: Tick)
    requires t.balance.None?
    ensures t.clock == Clock(0, Hms(10, 30, 5)) ==> Step(cfg, s, t) == Crashed
    ensures t.clock == Clock(0, Hms(10, 30, 11)) ==> Step(cfg, s, t) == Continue(TradeStep(cfg, s, t))
  {
  }

  /** The liquidation guard: once `soldout` is set, neither liquidation window
      does anything; when it is clear, a liquidation that completes sets it
      and empties the held-list. */
  lemma LiquidationOneShot(cfg: Config, s: State, t: Tick)
    requires IsMarketOpen(t.clock)
    requires WindowAt(t.clock.micros) == PreOpen || WindowAt(t.clock.micros) == CloseOut
    ensures s.soldout ==> Step(cfg, s, t) == Continue(s)
    ensures !s.soldout && Step(cfg, s, t).Continue? ==>
      Step(cfg, s, t).state.soldout && Step(cfg, s, t).state.book.bought == []
    ensures !s.soldout ==>
      (Step(cfg, s, t).Continue? <==>
        (t.balance.Some? &&
         LiquidationCompletes(if WindowAt(t.clock.micros) == PreOpen then s.book.holdings else t.balance.value, t)))
  {
  }

  /** A second pass in a liquidation window does nothing: after the first
      pass sets the guard, the next one leaves the state as it is. */
  lemma LiquidateOnlyOnce(cfg: Config, s: State, t1: Tick, t2: Tick)
    requires IsMarketOpen(t1.clock) && IsMarketOpen(t2.clock)
    requires WindowAt(t1.clock.micros) == PreOpen || WindowAt(t1.clock.micros) == CloseOut
    requires WindowAt(t2.clock.micros) == PreOpen || WindowAt(t2.clock.micros) == CloseOut
    requires Step(cfg, s, t1).Continue?
    ensures Step(cfg, Step(cfg, s, t1).state, t2) == Continue(Step(cfg, s, t1).state)
  {
  }

  /** What a completed liquidation does to the ledger: exactly the symbols
      whose sells the broker accepted lose their entry price and mark, the
      held-list is emptied, and the holdings become the fresh broker report
      (read after the sells before the open, before them at the close). */
  lemma LiquidationLedger(cfg: Config, s: State, t: Tick)
    requires IsMarketOpen(t.clock) && !s.soldout
    requires WindowAt(t.clock.micros) == PreOpen || WindowAt(t.clock.micros) == CloseOut
    requires Step(cfg, s, t).Continue?
    ensures t.balance.Some?
    ensures var r := Step(cfg, s, t).state;
      var sold := SoldIn(if WindowAt(t.clock.micros) == PreOpen then s.book.holdings else t.balance.value, t);
      && r.book.buyPrices == s.book.buyPrices - sold
      && r.book.trailingStops == s.book.trailingStops - sold
      && r.book.holdings == t.balance.value
      && r.book.bought == [] && r.soldout && r.announced == s.announced
  {
  }

  /** The session invariant: the held-list has no repeats, the two price
      maps track the same symbols, and no entry price is zero. */
  predicate Valid(s: State)
  {
    NoDup(s.book.bought) && Tracked(s.book) && PricedEntries(s.book)
  }

  /** Every pass keeps the session invariant. */
  lemma StepKeepsValid(cfg: Config, s: State, t: Tick)
    requires Valid(s)
    ensures Step(cfg, s, t).Continue? ==> Valid(Step(cfg, s, t).state)
  {
    if IsMarketOpen(t.clock) && WindowAt(t.clock.micros) == Trading {
      var b1 := Risk.RiskStep(s.book, t.quotes, t.sells);
      Risk.RiskPassHoldings(s.book, s.book.bought, t.quotes, t.sells);
      Risk.RiskPassTracked(s.book, s.book.bought, t.quotes, t.sells);
      Risk.RiskPassEntries(s.book, s.book.bought, t.quotes, t.sells);
      EnterBought(cfg, s.(book := b1), cfg.watchList, t);
      EnterLedger(cfg, s.(book := b1), cfg.watchList, t);
    } else if IsMarketOpen(t.clock) && !s.soldout && Step(cfg, s, t).Continue?
      && (WindowAt(t.clock.micros) == PreOpen || WindowAt(t.clock.micros) == CloseOut)
    {
      LiquidationLedger(cfg, s, t);
    }
  }

  /** No pass grows the held-list beyond the target count, unless it was
      already beyond it, in which case the pass does not grow it at all. */
  lemma StepBounded(cfg: Config, s: State, t: Tick)
    ensures Step(cfg, s, t).Continue? ==>
      |Step(cfg, s, t).state.book.bought| <= if |s.book.bought| < TargetBuyCount then TargetBuyCount else |s.book.bought|
  {
    if IsMarketOpen(t.clock) && WindowAt(t.clock.micros) == Trading {
      var b1 := Risk.RiskStep(s.book, t.quotes, t.sells);
      Risk.RiskPassHoldings(s.book, s.book.bought, t.quotes, t.sells);
      assert |b1.bought| <= |s.book.bought| by {
        var m1, m0 := multiset(b1.bought), multiset(s.book.bought);
        assert m0 == m1 + (m0 - m1);
        assert |m1| <= |m0|;
      }
      EnterBought(cfg, s.(book := b1), cfg.watchList, t);
    }
  }

  /** Only a successful buy re-arms the liquidation guard: a pass that
      clears `soldout` is a trading pass whose entry scan appended to the
      held-list the risk step left. */
  lemma SoldoutClearedOnlyByBuy(cfg: Config, s: State, t: Tick)
    requires s.soldout
    requires Step(cfg, s, t).Continue? && !Step(cfg, s, t).state.soldout
    ensures IsMarketOpen(t.clock) && WindowAt(t.clock.micros) == Trading
    ensures |Step(cfg, s, t).state.book.bought| > |Risk.RiskStep(s.book, t.quotes, t.sells).bought|
  {
    var b1 := Risk.RiskStep(s.book, t.quotes, t.sells);
    EnterBought(cfg, s.(book := b1), cfg.watchList, t);
  }

  /** What a trading pass does through its risk step: a position leaves the
      ledger only through an accepted sell of a held-list symbol that was
      quoted and that the broker reports; a position that could not be sold
      (not reported, or its sell not accepted) keeps its entry price, and its
      mark ends at least its quote and its old mark. */
  lemma TradingPassRisk(cfg: Config, s: State, t: Tick)
    requires IsMarketOpen(t.clock) && WindowAt(t.clock.micros) == Trading
    requires Step(cfg, s, t).Continue?
    ensures var r := Step(cfg, s, t).state;
      forall c :: c in s.book.buyPrices && c !in r.book.buyPrices ==>
        c in s.book.bought && c in t.quotes && c in s.book.holdings && OutcomeFor(t.sells, c) == Filled
    ensures var r := Step(cfg, s, t).state;
      Tracked(s.book) ==>
        forall c ::
          (c in s.book.bought && c in s.book.buyPrices && c in t.quotes
           && !(c in s.book.holdings && OutcomeFor(t.sells, c) == Filled)) ==>
            && c in r.book.buyPrices && r.book.buyPrices[c] == s.book.buyPrices[c]
            && c in r.book.trailingStops && r.book.trailingStops[c] >= t.quotes[c]
            && (c in s.book.trailingStops ==> r.book.trailingStops[c] >= s.book.trailingStops[c])
  {
    var b1 := Risk.RiskStep(s.book, t.quotes, t.sells);
    var s1 := s.(book := b1);
    var r := Step(cfg, s, t).state;
    assert r == Enter(cfg, s1, cfg.watchList, t);
    Risk.RiskPassEntries(s.book, s.book.bought, t.quotes, t.sells);
    Risk.RiskPassHoldings(s.book, s.book.bought, t.quotes, t.sells);
    Risk.RiskPassMarksRise(s.book, s.book.bought, t.quotes, t.sells);
    Risk.RiskPassMarksCoverQuote(s.book, s.book.bought, t.quotes, t.sells);
    EnterKeepsEntries(cfg, s1, cfg.watchList, t);
    EnterLedger(cfg, s1, cfg.watchList, t);
    forall c | c in s.book.buyPrices && c !in r.book.buyPrices
      ensures c in s.book.bought && c in t.quotes && c in s.book.holdings && OutcomeFor(t.sells, c) == Filled
    {
      assert c !in b1.buyPrices;
    }
    if Tracked(s.book) {
      Risk.RiskPassTracked(s.book, s.book.bought, t.quotes, t.sells);
      forall c | c in s.book.bought && c in s.book.buyPrices && c in t.quotes
          && !(c in s.book.holdings && OutcomeFor(t.sells, c) == Filled)
        ensures && c in r.book.buyPrices && r.book.buyPrices[c] == s.book.buyPrices[c]
                && c in r.book.trailingStops && r.book.trailingStops[c] >= t.quotes[c]
                && (c in s.book.trailingStops ==> r.book.trailingStops[c] >= s.book.trailingStops[c])
      {
        assert c in b1.buyPrices;
        assert c in b1.bought;
        assert c in b1.trailingStops;
      }
    }
  }

  /** A trading pass never adds to the holdings: they are refreshed only by
      the liquidation windows, so a position bought during the trading window
      is not reported as held until then. */
  lemma TradingKeepsHoldings(cfg: Config, s: State, t: Tick)
    requires IsMarketOpen(t.clock) && WindowAt(t.clock.micros) == Trading
    requires Step(cfg, s, t).Continue?
    ensures Step(cfg, s, t).state.book.holdings.Keys <= s.book.holdings.Keys
  {
    var b1 := Risk.RiskStep(s.book, t.quotes, t.sells);
    Risk.RiskPassHoldings(s.book, s.book.bought, t.quotes, t.sells);
    EnterKeepsEntries(cfg, s.(book := b1), cfg.watchList, t);
  }

  /** Consequence: over a run of trading passes, a position the broker does
      not report as held is never sold by the risk step; it keeps its entry
      price throughout, whatever its price does. This is the case for a
      position bought during the trading window unless the broker's last
      report still lists the symbol. */
  lemma {:induction false} UnheldPositionsPersist(cfg: Config, s: State, ticks: seq<Tick>, c: Symbol)
    requires c in s.book.buyPrices && c !in s.book.holdings
    requires forall i :: 0 <= i < |ticks| ==> WindowAt(ticks[i].clock.micros) == Trading
    decreases |ticks|
    ensures Run(cfg, s, ticks).Continue? ==> c in Run(cfg, s, ticks).state.book.buyPrices
  {
    if |ticks| > 0 {
      var t := ticks[0];
      assert WindowAt(t.clock.micros) == Trading;
      if Step(cfg, s, t).Continue? {
        TradingPassRisk(cfg, s, t);
        TradingKeepsHoldings(cfg, s, t);
        UnheldPositionsPersist(cfg, Step(cfg, s, t).state, ticks[1..], c);
      }
    }
  }

  /** The loop over a run of passes, until it stops or crashes. */
  function Run(cfg: Config, s: State, ticks: seq<Tick>): Next
    decreases |ticks|
  {
    if |ticks| == 0 then Continue(s)
    else match Step(cfg, s, ticks[0])
      case Continue(s1) => Run(cfg, s1, ticks[1..])
      case other => other
  }

  /** Over any run of passes the invariant holds, and the held-list never
      grows past the target count, or past its starting length when it began
      above it (start-up puts every broker holding on the list). */
  lemma {:induction false} RunKeepsValid(cfg: Config, s: State, ticks: seq<Tick>)
    requires Valid(s)
    decreases |ticks|
    ensures Run(cfg, s, ticks).Continue? ==>
      && Valid(Run(cfg, s, ticks).state)
      && |Run(cfg, s, ticks).state.book.bought| <= if |s.book.bought| < TargetBuyCount then TargetBuyCount else |s.book.bought|
  {
    if |ticks| > 0 {
      var n := Step(cfg, s, ticks[0]);
      if n.Continue? {
        StepKeepsValid(cfg, s, ticks[0]);
        StepBounded(cfg, s, ticks[0]);
        RunKeepsValid(cfg, n.state, ticks[1..]);
      }
    }
  }

  /** With the guard set and no trading pass in between, a run of passes
      changes nothing: liquidation does not repeat. */
  lemma {:induction false} GuardedRunIsQuiet(cfg: Config, s: State, ticks: seq<Tick>)
    requires s.soldout
    requires forall i :: 0 <= i < |ticks| ==> WindowAt(ticks[i].clock.micros) != Trading
    decreases |ticks|
    ensures Run(cfg, s, ticks).Continue? ==> Run(cfg, s, ticks).state == s
  {
    if |ticks| > 0 {
      assert WindowAt(ticks[0].clock.micros) != Trading;
      if Step(cfg, s, ticks[0]).Continue? {
        assert Step(cfg, s, ticks[0]).state == s;
        GuardedRunIsQuiet(cfg, s, ticks[1..]);
      }
    }
  }
}

=== FILE: target_price.dfy ===
/** The breakout target price: today's open plus yesterday's range scaled by
    a multiplier that shrinks as volatility grows, and the announcement of
    each symbol's target, made on the first successful computation only. */
module TargetPrice {
  import opened Market
  import Volatility

  /** Volatility above this uses the smallest multiplier. */
  const HighVolatility: real := 0.4
  /** Volatility above this (and not above the high tier) uses the middle multiplier. */
  const MidVolatility: real := 0.25

  /** The multiplier for a volatility, by strict thresholds. */
  function Multiplier(vol: real): (m: real)
    ensures m == 0.3 <==> vol > HighVolatility
    ensures m == 0.5 <==> MidVolatility < vol <= HighVolatility
    ensures m == 0.7 <==> vol <= MidVolatility
  {
    if vol > HighVolatility then 0.3
    else if vol > MidVolatility then 0.5
    else 0.7
  }

  /** Higher volatility never yields a larger multiplier. */
  lemma MultiplierNonIncreasing(v1: real, v2: real)
    requires v1 <= v2
    ensures Multiplier(v2) <= Multiplier(v1)
  {
  }

  /** Today's breakout level. */
  function Target(open: real, high: real, low: real, vol: real): real
  {
    open + (high - low) * Multiplier(vol)
  }

  /** With a proper range (high at least low) the target lies between 30% and
      70% of the range above the open, so never below the open. */
  lemma TargetBounds(open: real, high: real, low: real, vol: real)
    requires high >= low
    ensures open + (high - low) * 0.3 <= Target(open, high, low, vol) <= open + (high - low) * 0.7
    ensures Target(open, high, low, vol) >= open
  {
  }

  /** With a proper range, higher volatility never raises the target. */
  lemma TargetNonIncreasing(open: real, high: real, low: real, v1: real, v2: real)
    requires high >= low && v1 <= v2
    ensures Target(open, high, low, v2) <= Target(open, high, low, v1)
  {
  }

  /** Today's open and yesterday's high and low. */
  datatype Bars = Bars(open: real, high: real, low: real)

  /** The converted value of a field, or `None` when the field is missing or
      its text does not convert. */
  function Number(row: Row, field: string): Option<real>
  {
    if field in row then row[field] else None
  }

  /** Reads the open of row 0 (today) and the high and low of row 1
      (yesterday); a missing row or field, or a value that does not convert,
      makes the read fail. */
  function ReadBars(rows: seq<Row>): (r: Option<Bars>)
    ensures r.Some? <==>
      (|rows| >= 2 && Number(rows[0], "open").Some? && Number(rows[1], "high").Some? && Number(rows[1], "low").Some?)
    ensures r.Some? ==>
      (Some(r.value.open) == rows[0]["open"] && Some(r.value.high) == rows[1]["high"] && Some(r.value.low) == rows[1]["low"])
  {
    if |rows| < 2 then None
    else match (Number(rows[0], "open"), Number(rows[1], "high"), Number(rows[1], "low"))
      case (Some(o), Some(h), Some(l)) => Some(Bars(o, h, l))
      case _ => None
  }

  /** A computed target, the announced-set after the computation, and
      whether this computation announced it. */
  datatype Computed = Computed(price: real, announced: set<Symbol>, announce: bool)

  /** One target computation for `code` from its daily rows, with the
      volatility estimated from the same rows over the usual window. A
      failed read raises before anything is announced. */
  function GetTarget(announced: set<Symbol>, code: Symbol, rows: seq<Row>, annualise: seq<real> -> real): (r: Option<Computed>)
    ensures r.None? <==> ReadBars(rows).None?
    ensures r.Some? ==> r.value.announced == announced + {code}
    ensures r.Some? ==> (r.value.announce <==> code !in announced)
    ensures r.Some? ==> var b := ReadBars(rows).value;
      r.value.price == Target(b.open, b.high, b.low, Volatility.Estimate(rows, Volatility.WindowDays, annualise))
  {
    match ReadBars(rows)
    case None => None
    case Some(b) =>
      var vol := Volatility.Estimate(rows, Volatility.WindowDays, annualise);
      Some(Computed(Target(b.open, b.high, b.low, vol), announced + {code}, code !in announced))
  }

  /** How many of a run of computations for one symbol announce it. */
  function Announcements(announced: set<Symbol>, code: Symbol, payloads: seq<seq<Row>>, annualise: seq<real> -> real): nat
    decreases |payloads|
  {
    if |payloads| == 0 then 0
    else match GetTarget(announced, code, payloads[0], annualise)
      case None => Announcements(announced, code, payloads[1..], annualise)
      case Some(c) => (if c.announce then 1 else 0) + Announcements(c.announced, code, payloads[1..], annualise)
  }

  /** Over any run of computations for one symbol, the target is announced
      at most once: never when it was already announced, and otherwise
      exactly once if some computation in the run succeeds. */
  lemma {:induction false} AnnouncedOnce(announced: set<Symbol>, code: Symbol, payloads: seq<seq<Row>>, annualise: seq<real> -> real)
    decreases |payloads|
    ensures Announcements(announced, code, payloads, annualise) <= 1
    ensures code in announced ==> Announcements(announced, code, payloads, annualise) == 0
    ensures code !in announced ==>
      (Announcements(announced, code, payloads, annualise) == 1 <==>
        exists i :: 0 <= i < |payloads| && ReadBars(payloads[i]).Some?)
  {
    if |payloads| > 0 {
      var rest := payloads[1..];
      AnnouncedOnce(announced, code, rest, annualise);
      match GetTarget(announced, code, payloads[0], annualise)
      case None =>
        if code !in announced {
          if exists i :: 0 <= i < |payloads| && ReadBars(payloads[i]).Some? {
            var i :| 0 <= i < |payloads| && ReadBars(payloads[i]).Some?;
            assert i > 0 && rest[i - 1] == payloads[i];
          }
          if exists j :: 0 <= j < |rest| && ReadBars(rest[j]).Some? {
            var j :| 0 <= j < |rest| && ReadBars(rest[j]).Some?;
            assert payloads[j + 1] == rest[j];
          }
        }
      case Some(c) =>
        AnnouncedOnce(c.announced, code, rest, annualise);
        assert code in c.announced;
        if code !in announced {
          assert ReadBars(payloads[0]).Some?;
        }
    }
  }
}

=== FILE: volatility.dfy ===
/** The data-handling part of the volatility estimate: closes are read from
    the daily-price rows with a fallback order of field names, adjacent pairs
    are turned into daily returns with unusable pairs skipped, and the
    estimate falls back to a fixed value when too few returns survive. The
    statistics on the returns (sample deviation scaled to a year) are a
    parameter. */
module Volatility {
  import opened Market

  /** Volatility assumed when the history is empty or too thin. */
  const FallbackVolatility: real := 0.2

  /** Number of daily returns the caller asks for. */
  const WindowDays: int := 20

  /** Field names tried, in this order, for the close of a row. */
  const CloseFields: seq<string> := ["clos", "last", "base", "close"]

  /** The value of the first of `names` present in the row; 0 when none is. */
  function FirstField(row: Row, names: seq<string>): Option<real>
  {
    if |names| == 0 then Some(0.0)
    else if names[0] in row then row[names[0]]
    else FirstField(row, names[1..])
  }

  /** The close of a row; `None` when the chosen field does not convert. */
  function Close(row: Row): Option<real>
  {
    FirstField(row, CloseFields)
  }

  /** The close is read from "clos" when present, else "last", else "base",
      else "close"; a row with none of them reads as 0. */
  lemma CloseFieldOrder(row: Row)
    ensures "clos" in row ==> Close(row) == row["clos"]
    ensures "clos" !in row && "last" in row ==> Close(row) == row["last"]
    ensures "clos" !in row && "last" !in row && "base" in row ==> Close(row) == row["base"]
    ensures "clos" !in row && "last" !in row && "base" !in row && "close" in row ==> Close(row) == row["close"]
    ensures (forall f :: f in CloseFields ==> f !in row) ==> Close(row) == Some(0.0)
  {
    var n1, n2, n3 := CloseFields[1..], CloseFields[2..], CloseFields[3..];
    assert n1 == ["last", "base", "close"] && n2 == ["base", "close"] && n3 == ["close"];
    assert n1[1..] == n2 && n2[1..] == n3 && n3[1..] == [];
    if "clos" !in row {
      assert Close(row) == FirstField(row, n1);
      if "last" !in row {
        assert FirstField(row, n1) == FirstField(row, n2);
        if "base" !in row {
          assert FirstField(row, n2) == FirstField(row, n3);
          if "close" !in row {
            assert FirstField(row, n3) == FirstField(row, []);
          }
        }
      }
    }
  }

  /** The daily return of the pair (row `i`, row `i + 1`); rows are most
      recent first, so row `i + 1` is the day before. `None` when either close
      fails to convert or is 0. */
  function PairReturn(prices: seq<Row>, i: nat): (r: Option<real>)
    requires i + 1 < |prices|
    ensures r.Some? <==>
      (Close(prices[i]).Some? && Close(prices[i + 1]).Some? && Close(prices[i]).value != 0.0 && Close(prices[i + 1]).value != 0.0)
    ensures r.Some? ==>
      r.value * Close(prices[i + 1]).value == Close(prices[i]).value - Close(prices[i + 1]).value
  {
    match (Close(prices[i]), Close(prices[i + 1]))
    case (Some(today), Some(yesterday)) =>
      if today == 0.0 || yesterday == 0.0 then None else Some((today - yesterday) / yesterday)
    case _ => None
  }

  /** How many adjacent pairs are examined: `days`, capped by the pairs the
      history has, and none for an empty history or a negative `days`. */
  function PairsExamined(prices: seq<Row>, days: int): (n: nat)
    ensures n <= WindowOf(days) && (|prices| > 0 ==> n < |prices|)
    ensures |prices| == 0 ==> n == 0
    ensures |prices| > 0 && days >= 0 ==> n == if days < |prices| - 1 then days else |prices| - 1
  {
    if |prices| == 0 || days <= 0 then 0
    else if days < |prices| - 1 then days
    else |prices| - 1
  }

  /** `days` read as a count, a negative one examining nothing. */
  function WindowOf(days: int): nat
  {
    if days < 0 then 0 else days
  }

  /** Reference: the positions of the usable pairs among the first `n`. */
  function ValidPairs(prices: seq<Row>, n: nat): set<nat>
  {
    set k: nat | k < n && k + 1 < |prices| && PairReturn(prices, k).Some?
  }

  /** The returns of the usable pairs among the first `n`, in order. */
  function Returns(prices: seq<Row>, n: nat): (r: seq<real>)
    requires n == 0 || n < |prices|
    ensures |r| == |ValidPairs(prices, n)| && |r| <= n
  {
    if n == 0 then
      assert ValidPairs(prices, 0) == {};
      []
    else
      ValidPairsGrow(prices, n - 1);
      var rest := Returns(prices, n - 1);
      match PairReturn(prices, n - 1)
      case Some(x) => rest + [x]
      case None => rest
  }

  /** How many usable pairs come before pair `k`. */
  function Rank(prices: seq<Row>, k: nat): nat
  {
    |ValidPairs(prices, k)|
  }

  /** The values the returns hold: usable pair `k` contributes its own return,
      at the position after the returns of the usable pairs before it. With
      the length in `Returns`, this fixes the sequence completely. */
  lemma ReturnsValues(prices: seq<Row>, n: nat)
    requires n == 0 || n < |prices|
    ensures forall k :: k in ValidPairs(prices, n) ==>
      Rank(prices, k) < |Returns(prices, n)| && Returns(prices, n)[Rank(prices, k)] == PairReturn(prices, k).value
  {
    forall k | k in ValidPairs(prices, n)
      ensures Rank(prices, k) < |Returns(prices, n)| && Returns(prices, n)[Rank(prices, k)] == PairReturn(prices, k).value
    {
      ReturnValueAt(prices, n, k);
    }
  }

  /** The return of one usable pair, at its rank. */
  lemma {:induction false} ReturnValueAt(prices: seq<Row>, n: nat, k: nat)
    requires n < |prices| && k < n && k + 1 < |prices| && PairReturn(prices, k).Some?
    ensures Rank(prices, k) < |Returns(prices, n)| && Returns(prices, n)[Rank(prices, k)] == PairReturn(prices, k).value
  {
    ValidPairsGrow(prices, n - 1);
    var rest := Returns(prices, n - 1);
    if k < n - 1 {
      ReturnValueAt(prices, n - 1, k);
      match PairReturn(prices, n - 1)
      case Some(x) => assert Returns(prices, n) == rest + [x];
      case None => assert Returns(prices, n) == rest;
    } else {
      assert Rank(prices, k) == |rest|;
      assert Returns(prices, n) == rest + [PairReturn(prices, k).value];
    }
  }

  /** One more examined pair adds its position to the usable set exactly
      when the pair is usable. */
  lemma ValidPairsGrow(prices: seq<Row>, k: nat)
    requires k + 1 < |prices|
    ensures k !in ValidPairs(prices, k)
    ensures PairReturn(prices, k).Some? ==> ValidPairs(prices, k + 1) == ValidPairs(prices, k) + {k}
    ensures PairReturn(prices, k).None? ==> ValidPairs(prices, k + 1) == ValidPairs(prices, k)
  {
  }

  /** The volatility estimate: the fallback for an empty history or fewer
      than two usable returns, otherwise `annualise` of the returns. */
  function Estimate(prices: seq<Row>, days: int, annualise: seq<real> -> real): (v: real)
    ensures |prices| == 0 ==> v == FallbackVolatility
    ensures |ValidPairs(prices, PairsExamined(prices, days))| < 2 ==> v == FallbackVolatility
    ensures |prices| > 0 && |ValidPairs(prices, PairsExamined(prices, days))| >= 2 ==>
      v == annualise(Returns(prices, PairsExamined(prices, days)))
  {
    if |prices| == 0 then FallbackVolatility
    else
      var rs := Returns(prices, PairsExamined(prices, days));
      if |rs| > 1 then annualise(rs) else FallbackVolatility
  }

  /** The collection loop as the script runs it: pair by pair, skipping
      unusable pairs. It yields the returns of the reference definition. */
  method CollectReturns(prices: seq<Row>, days: int) returns (rs: seq<real>)
    ensures |rs| == |ValidPairs(prices, PairsExamined(prices, days))|
    ensures rs == Returns(prices, PairsExamined(prices, days))
  {
    var n := PairsExamined(prices, days);
    rs := [];
    var i := 0;
    while i < n
      invariant 0 <= i <= n
      invariant rs == Returns(prices, i)
    {
      var today := Close(prices[i]);
      var yesterday := Close(prices[i + 1]);
      if today.Some? && yesterday.Some? && today.value != 0.0 && yesterday.value != 0.0 {
        rs := rs + [(today.value - yesterday.value) / yesterday.value];
      }
      i := i + 1;
    }
  }

  /** Rows beyond the examined pairs do not matter: the estimate over the
      whole history equals the estimate over its first `PairsExamined + 1`
      rows. */
  lemma EstimateIgnoresOlderRows(prices: seq<Row>, days: int, annualise: seq<real> -> real)
    requires |prices| > 0
    ensures var m := PairsExamined(prices, days);
      Estimate(prices, days, annualise) == Estimate(prices[..m + 1], days, annualise)
  {
    var m := PairsExamined(prices, days);
    var short := prices[..m + 1];
    assert PairsExamined(short, days) == m;
    ReturnsPrefix(prices, m, m + 1);
  }

  /** Returns over the first `n` pairs read only the first `len` rows. */
  lemma {:induction false} ReturnsPrefix(prices: seq<Row>, n: nat, len: nat)
    requires n < len <= |prices|
    ensures Returns(prices, n) == Returns(prices[..len], n)
  {
    if n > 0 {
      ReturnsPrefix(prices, n - 1, len);
      assert prices[..len][n - 1] == prices[n - 1] && prices[..len][n] == prices[n];
      assert PairReturn(prices, n - 1) == PairReturn(prices[..len], n - 1);
    }
  }

  /** A row whose close is 0 (or missing, which reads as 0) makes both
      pairs it takes part in unusable. */
  lemma ZeroCloseSkipped(prices: seq<Row>, k: nat)
    requires k < |prices| && Close(prices[k]) == Some(0.0)
    ensures k + 1 < |prices| ==> PairReturn(prices, k).None?
    ensures k > 0 ==> PairReturn(prices, k - 1).None?
  {
  }

  /** A history of one row gives no pair at all, hence the fallback. */
  lemma SingleRowFallback(row: Row, days: int, annualise: seq<real> -> real)
    ensures Estimate([row], days, annualise) == FallbackVolatility
  {
  }
}
